=== FILE: README.md ===
# Product catalog backend: rate limiting, change logging and product rules

A Dafny model of the core of a Django product-catalog service. Authenticated
users create, edit, soft-delete, search and bulk-create products. Each save
of a product writes a change-log record. A middleware limits how many
requests each identity may make per minute.

All state is immutable values:

- the shared cache is a `map` from counter key to count and expiry;
- the product table and the change-log table form one `Db` value, with an
  auto-increment counter;
- every operation is a pure function from the old state and its inputs to
  the new state and its answer.

Modules follow the source files:

| module | file | what it holds |
|---|---|---|
| `RateLimit` | `ratelimit.dfy` | the middleware: tiers, counter keys, client address, admit/refuse step, runs of requests |
| `Catalog` | `catalog.dfy` | `Product`, its bounds, `final_price`, `soft_delete`, the change-log record and its four actions |
| `ChangeLog` | `changelog.dfy` | the post-save and pre-delete recorders: CREATED marker, five-field diff, UPDATED/DISABLED choice, DELETED marker |
| `Store` | `store.dfy` | the two tables, inserts and saves that fire the recorder, physical delete, business-key uniqueness |
| `Forms` | `forms.dfy` | the product forms: price, discount and business-key checks, batch checks, bulk creation |
| `ProductViews` | `views.dfy` | the endpoints: visibility, create, update, destroy, disable, search, bulk create |
| `Accounts` | `accounts.dfy` | registration and login validation |
| `Text`, `Results` | `text.dfy`, `results.dfy` | the parts of Python's `str` the code uses; `Option` and `Result` |

Amounts are two-place decimals stored as whole hundredths (12.50 is 1250).
`final_price` is computed exactly as a `real`. Time is whole seconds,
passed in by the caller.

Where the code departs from the obvious reading of the system's
behaviour, the model follows the code:

- A refused request does not increment its counter. Admission is decided by
  comparing the stored count with the limit before any increment.
- Every admitted request writes the counter again with a new 60-second
  expiry. The window therefore moves forward with each admitted request
  instead of staying fixed (`RateLimit.AdmissionExtendsExpiry`).
- An update is logged as DISABLED whenever the saved row is inactive. This
  includes saving a row that was already inactive; a change from active to
  inactive is not required (`ChangeLog.InactiveResaveIsDisabled`).
- An update with nothing to report carries the marker "Product updated".
- Nothing in the code wraps a save and its change record in a transaction,
  and bulk creation inserts rows one at a time.

## Model

| member | source | states |
|---|---|---|
| RateLimit.Limit | apps/core/middleware.py:15-23 | the limit is 1000 exactly for an authenticated user whose role is "admin", 100 exactly for any other authenticated user, and 10 exactly for an anonymous request |
| RateLimit.ClientIp | apps/core/middleware.py:45-51 | a non-empty forwarded-for header gives its text up to the first comma: a prefix of the header with no comma, followed by a comma or the end of the header; otherwise the result is the peer address, which may be absent |
| RateLimit.KeysNeverCollide | apps/core/middleware.py:20-23 | a user's counter key and a client-address key are never equal, and no user key starts with the address-key prefix |
| RateLimit.UserKeysDistinct | apps/core/middleware.py:20 | two different user ids get two different counter keys |
| RateLimit.Handle | apps/core/middleware.py:11-43 | an "/admin/" path is passed through and leaves the cache as it was; otherwise the request is refused exactly when the stored count (0 if missing or expired) has reached the limit, and a refusal leaves the cache as it was; an admission stores count+1 expiring at now+60 under the request's key and reports remaining = limit − count − 1, which lies in [0, limit−1] |
| RateLimit.RunWithinWindow | apps/core/middleware.py:25-40 | if a key reads count c throughout a 60-second span, the requests in that span are admitted while c + i < limit, with remaining limit − c − i − 1, and refused after that |
| RateLimit.FreshKeyRun | apps/core/middleware.py:25-40 | from a key with no counter, requests 1..limit within one minute are admitted with remaining limit−1 down to 0, and every later request in that minute is refused |
| RateLimit.ExpiredEntryStartsOver | apps/core/middleware.py:25-36 | once a counter has expired, the next request is admitted as the first one: remaining limit−1, and the stored count is 1 |
| RateLimit.AdmissionExtendsExpiry | apps/core/middleware.py:36 | an admitted request pushes the expiry forward: after requests at seconds 0 and 59 the count still reads 2 at second 100 |
| RateLimit.HandleKeepsBounded | apps/core/middleware.py:15-36 | no step stores a count above its key's cap: 10 for client-address keys and 1000 for any other key |
| RateLimit.RunKeepsBounded | apps/core/middleware.py:25-36 | starting from a bounded cache, such as the empty one, no run of requests stores a count above its key's cap |
| RateLimit.RunStaysWithinLimit | apps/core/middleware.py:15-36 | repeating one request from a cache where its key is within that request's limit (such as the empty cache) never stores a count above the limit: 10 for an address, 100 for a user, 1000 for an administrator |
| Catalog.NewProduct | apps/products/models.py:16-24 | a new row keeps the given fields, takes discount 0 when none is given, starts active, and has both timestamps set to the save time |
| Catalog.FinalPrice | apps/products/models.py:40-44 | with discount ≤ 0 the final price equals the price; with discount > 0 it equals price × (100 − discount)/100 |
| Catalog.FinalPriceWithinPrice | apps/products/models.py:40-44 | if price ≥ 0.01 and 0 ≤ discount ≤ 100, then 0 ≤ final price ≤ price |
| Catalog.SoftDelete | apps/products/models.py:46-50 | the row becomes inactive; updated_by becomes the given user, or stays as it was when no user is given; no other field changes |
| Catalog.SoftDeleteIdempotent | apps/products/models.py:46-50 | soft-deleting twice with the same user gives the same row as soft-deleting once |
| Catalog.ParseAction | apps/products/models.py:54-64 | a stored action code reads back only as the action with that code |
| Catalog.ActionCodesRoundTrip | apps/products/models.py:54-71 | each of CREATED, UPDATED, DELETED and DISABLED reads back as itself and fits the ten-character column |
| ChangeLog.Diff | apps/products/signals.py:16-23 | the diff's keys lie within title, description, price, discount and is_active; a field is present exactly when a before-image exists and its old value differs from the new; each entry holds str(old) and str(new); with no before-image the diff is empty |
| ChangeLog.RecordSave | apps/products/signals.py:7-36 | a create gives one CREATED record by created_by with message "Product created"; an update gives one record by updated_by, marked DISABLED exactly when the row is inactive after the save and UPDATED exactly when it is active; the payload is the diff when that is non-empty and "Product updated" otherwise, so it is never empty |
| ChangeLog.RecordDelete | apps/products/signals.py:39-46 | a physical delete gives one DELETED record with actor updated_by (possibly none) and message "Product deleted" |
| ChangeLog.DiffAgainstSelfIsEmpty | apps/products/signals.py:19-22 | diffing a row against its own before-image reports no field |
| ChangeLog.DiffNamesChangedFields | apps/products/signals.py:19-22 | against a full before-image, the diff's keys are exactly the tracked fields whose values differ |
| ChangeLog.TitleAndPriceUpdate | apps/products/signals.py:16-36 | changing only the title and price of an active row gives an UPDATED record whose payload has exactly the keys title and price, each with its old and new string |
| ChangeLog.InactiveResaveIsDisabled | apps/products/signals.py:25-35 | saving an already inactive row with no change is logged as DISABLED with message "Product updated" |
| ChangeLog.SoftDeleteIsLoggedDisabled | apps/products/signals.py:25-35 | the save after a soft delete of an active row is logged as DISABLED by that user, with the single change is_active "True" → "False" |
| Store.Insert | apps/products/signals.py:9-15 | an insert puts the new row under the next id, advances the counter, and appends exactly one CREATED record for it |
| Store.Save | apps/products/signals.py:7-36 | a save of an existing row stamps updated_on, writes the row back, keeps the id counter, and appends exactly the update record for the saved row |
| Store.InsertKeepsValid | apps/products/models.py:14-23 | inserting a row within the price and discount bounds whose business key no stored row holds keeps the table valid: rows under their own ids, every row within the bounds, business keys unique |
| Store.SaveKeepsValid | apps/products/models.py:14-23 | writing back a row within the bounds whose business key no other row holds keeps the table valid |
| Store.StoredFinalPriceWithinPrice | apps/products/models.py:14-44 | in a valid table every stored row's final price lies between 0 and its price |
| Store.LogsWithout | apps/products/models.py:66-70 | the cascade keeps exactly the records of other products and never adds one |
| Store.DeleteAsWritten | apps/products/models.py:66-70 | after a physical delete, the row is gone and so is every change record that refers to it; in a valid table the log holds exactly the old records of every other product; deleting an unknown id changes nothing |
| Store.DeletedRecordIsLost | apps/products/signals.py:39-46 | the DELETED record written by the pre-delete hook is not in the log after the delete |
| Store.Delete | apps/products/signals.py:39-46 | a physical delete that keeps the history: the row is gone, and the log is the old log followed by its DELETED record |
| Store.DeleteKeepsValid | apps/products/models.py:14-23 | removing a row keeps the table valid |
| Forms.CheckPrice | apps/products/serializers.py:37-40 | a price is accepted exactly when it is greater than 0 |
| Forms.CheckDiscount | apps/products/serializers.py:42-45 | a discount is accepted exactly when 0 ≤ discount ≤ 100, both ends included |
| Forms.CheckNewSsn | apps/products/serializers.py:47-50 | on create, a business key is accepted exactly when no stored row holds it, whether that row is active or not |
| Forms.CheckEditedSsn | apps/products/serializers.py:68-74 | on update of a row, a business key is accepted exactly when no other row holds it; without a row it behaves as on create |
| Forms.CreateErrors | apps/products/serializers.py:32-50 | the create form reports a price error exactly when price ≤ 0, a discount error exactly when a given discount is outside [0, 100], and a key error exactly when the key is stored |
| Forms.UpdateErrors | apps/products/serializers.py:53-74 | the update form checks only the fields it is given, with the same price and discount rules, and the key rule that ignores the row being edited |
| Forms.OwnSsnIsAccepted | apps/products/serializers.py:68-74 | keeping one's own business key is accepted on update |
| Forms.AcceptedInputWithinBounds | apps/products/serializers.py:37-45 | a create form with no errors is within the column bounds, price ≥ 0.01 and discount in [0, 100] (0 when absent), and so is the row it builds |
| Forms.SetSizeDetectsRepeat | apps/products/serializers.py:84-86 | a list and its set of items have the same size exactly when no item appears twice |
| Forms.ValidateProducts | apps/products/serializers.py:80-94 | the checks run in order: an empty batch is refused first, then a batch with a repeated key, then a batch with stored keys, and that error lists exactly the batch keys already stored; the batch is accepted exactly when it is non-empty, has no repeat and has no stored key |
| Forms.CreateAll | apps/products/serializers.py:96-109 | bulk creation gives one row per entry, in order, with consecutive new ids; each row carries its entry's fields and has the request user as created_by and updated_by; exactly one CREATED record per row is appended, in the same order; older rows do not change |
| Forms.NewRows | apps/products/serializers.py:101-106 | the rows of a batch take consecutive ids from the first free one; each carries its entry's fields, starts active, and has the request user as created_by and updated_by |
| Forms.Placed | apps/products/serializers.py:100-107 | storing the rows one after the other adds exactly the new ids, puts each row under its own id, and leaves every other stored row unchanged |
| Forms.CreateAllKeepsValid | apps/products/serializers.py:80-109 | creating a batch whose entries are within the bounds and whose keys are neither repeated nor stored keeps the table valid |
| ProductViews.Queryset | apps/products/views.py:31-37 | only the list action of a non-administrator is narrowed to active rows; every other action sees every row |
| ProductViews.ListVisibility | apps/products/views.py:31-37 | an administrator's list is every row; a non-administrator's list is exactly the active rows |
| ProductViews.PerformCreate | apps/products/views.py:48-49 | a create succeeds exactly when the form has no error; the new row carries the input, takes the next free id, which advances by one, and has the user as created_by and updated_by; one CREATED record is appended |
| ProductViews.PerformCreateKeepsValid | apps/products/views.py:48-49 | a successful create keeps the table valid |
| ProductViews.ApplyPatch | apps/products/views.py:51-52 | each field the update form supplies replaces the stored value, each field it leaves out keeps it, and no other field of the row changes |
| ProductViews.PerformUpdate | apps/products/views.py:51-52 | an unknown id is not found; otherwise form errors are reported; on success the saved row is the stored row with each supplied field replaced, the user as updated_by and updated_on stamped, while created_by, the active flag and the id stay; only that row of the table changes; the old log is kept and exactly one record is appended, by the user, for that row, UPDATED or DISABLED according to the row's active flag |
| ProductViews.PerformUpdateKeepsValid | apps/products/views.py:51-52 | a successful update keeps the table valid |
| ProductViews.Destroy | apps/products/views.py:54-60 | destroy never removes a row: an unknown id is not found; otherwise the stored row becomes the row soft-deleted by the user with updated_on stamped, no other row and not the id counter changes, the old log is kept, and exactly one DISABLED record by the user, for that row, is appended |
| ProductViews.Disable | apps/products/views.py:62-69 | disable is not found exactly for an unknown id; otherwise it leaves the row inactive with the user as updated_by, with the same effect on both tables as destroy: the soft-deleted row stored in place, other rows and the counter unchanged, one DISABLED record by the user |
| ProductViews.DisableIsDestroy | apps/products/views.py:54-69 | disable has exactly the same effect as destroy |
| ProductViews.DestroyKeepsValid | apps/products/views.py:54-60 | a soft delete keeps the table valid |
| ProductViews.SearchAsWritten | apps/products/views.py:131-150 | a blank query is an error with no results; otherwise the results are exactly the stored rows, active or not, whose title or description contains the stripped query, ignoring case |
| ProductViews.SearchAsWrittenShowsInactive | apps/products/views.py:31-37 | a non-administrator's search returns a matching inactive row that the same user's list hides |
| ProductViews.SearchAsWrittenLampExample | apps/products/views.py:132-142 | the inactive row titled "Lamp" matches the query "lamp" |
| ProductViews.Search | apps/products/views.py:131-150 | a blank query is an error; otherwise the results are exactly the rows of the user's list whose title or description contains the stripped query, ignoring case, so a non-administrator sees only active rows |
| ProductViews.SelectLowerQuery | apps/products/views.py:140-142 | among any rows, a lower-cased query selects exactly the rows the query itself selects |
| ProductViews.SearchIgnoresQueryCase | apps/products/views.py:132-142 | a lower-cased query gives the same results as the original |
| ProductViews.BulkCreate | apps/products/views.py:152-165 | entry errors are reported exactly when some entry fails the create form, as one error set per entry, in order, each the errors of that entry; otherwise the batch checks decide; on success every entry is created by the user, in order |
| ProductViews.BulkCreateNeverReportsExisting | apps/products/serializers.py:78-92 | bulk create never reports the batch-level "already exist" error, because the per-entry key check refuses those entries first |
| ProductViews.BulkCreateKeepsValid | apps/products/views.py:152-165 | a successful bulk create keeps the table valid |
| Accounts.FieldErrors | apps/authentication/serializers.py:17-38 | registration reports an email error exactly when the email is in use, a username error exactly when the username is in use, and a password error exactly when the validators refuse the password |
| Accounts.ValidateRegistration | apps/authentication/serializers.py:48-51 | registration is accepted exactly when the email and username are unused, the password is acceptable and the two passwords match; the mismatch error is raised only when every field passed, and then alone |
| Accounts.CreateUserArgs | apps/authentication/serializers.py:53-56 | create_user gets email, username, password and role unchanged, without password2 |
| Accounts.Trimmed | apps/authentication/serializers.py:17-41 | the email, username, password and confirmation fields are stripped of surrounding whitespace and the role is passed on |
| Accounts.Register | apps/authentication/serializers.py:17-56 | the submitted strings are trimmed first; registration fails exactly when validation of the trimmed form fails, with its errors; on success create_user gets the trimmed email, username and password and the role, without password2 |
| Accounts.RegisteredUserIsConfirmed | apps/authentication/serializers.py:48-56 | a created user's password is the trimmed password, equals the trimmed confirmation and is acceptable, and the trimmed email and username were unused |
| Accounts.PaddedConfirmationMatches | apps/authentication/serializers.py:33-51 | passwords that differ only in surrounding whitespace never give the mismatch error |
| Accounts.PaddedPasswordExample | apps/authentication/serializers.py:33-41 | " pw" and "pw" trim to the same password "pw" |
| Accounts.TrimmedField | apps/authentication/serializers.py:59-63 | a missing login field stays missing and a given one is stripped of surrounding whitespace |
| Accounts.Login | apps/authentication/serializers.py:59-88 | fields are trimmed first; a missing or empty email or password is refused; otherwise no user from authentication gives "Unable to log in", checked before the active flag; an inactive user gives "User account is disabled"; on success the authenticated active user is attached with the trimmed credentials |
| Accounts.LoginSucceedsIff | apps/authentication/serializers.py:59-88 | login succeeds exactly when both trimmed fields are non-empty and authentication of them returns an active user |
| Text.ParseNatToString | apps/core/middleware.py:20 | the decimal text of a user id reads back as that id |
| Text.FirstSegment | apps/core/middleware.py:48 | the first segment is a prefix of the text holding no separator, and it ends at the first separator or at the end of the text |
| Text.DecimalString | apps/products/signals.py:23 | a two-place amount renders with a point before its last two characters and a leading minus sign exactly when it is negative |
| Text.DecimalStringDenotes | apps/products/signals.py:23 | the rendering of an amount reads back as that amount: a minus sign exactly for a negative amount, then decimal digits, a point and two digits, and 100 × the whole-part digits' value + the two fraction digits equals the magnitude in hundredths, so each logged old or new price and discount string is `str()` of the stored amount |
| Text.DecimalStringInjective | apps/products/signals.py:19-23 | different amounts render as different strings, so a changed price or discount shows as changed old and new strings |
| Text.StripEmptyIffBlank | apps/products/views.py:132-138 | a stripped query is empty exactly when the query is all whitespace |
| Text.ContainsIffOccurs | apps/products/views.py:140-142 | the recursive containment test holds exactly when the needle occurs at some offset of the haystack |

## Findings

| source | as written | input that shows it | evidently intended | confidence | as-written member | corrected member |
|---|---|---|---|---|---|---|
| apps/products/views.py:31-37 | `get_queryset` hides inactive rows only for the `list` action, and `search` runs under the action name `search`, so a non-administrator's search returns soft-deleted products | a non-administrator searches "lamp" while the only row is the inactive product titled "Lamp"; the list hides it but search returns it | search shows a non-administrator only what that user's list shows | medium; not executed | ProductViews.SearchAsWritten, ProductViews.SearchAsWrittenShowsInactive, ProductViews.SearchAsWrittenLampExample | ProductViews.Search |
| apps/products/models.py:66-70 | the pre-delete hook writes a DELETED record, but the log's foreign key to the product cascades, so deleting the row deletes that record with it | any physical delete of a stored product, for example a `product.delete()` call from code (the admin site refuses such deletes, because the product's change records may not be deleted there) | a physical delete leaves its DELETED record in the history | medium; not executed (relies on Django running pre-delete receivers before the cascade) | Store.DeleteAsWritten, Store.DeletedRecordIsLost | Store.Delete |

## Left out

- Concurrency and atomicity: the cache read and write in the middleware are a non-atomic read-modify-write. Signal dispatch is not atomic with the save. Everything is modelled as one request at a time.
- Clock: `now` is an input. The reset header reads the clock again after the view returns; it is modelled as now + 60.
- Response formatting: the 429 body, the header strings and the success messages of destroy, disable and bulk create are not modelled.
- The middleware's `get_response` call: the downstream view is not modelled.
- The before-image: no file in this model attaches `_old_values` to an instance. The recorder and the update and destroy paths take the attached image as an input (`Option<Snapshot>`). With none, every update is logged with the marker.
- The product image field, pagination, ordering, the declarative `ProductFilter` and the XLSX export are not modelled.
- The admin site (apps/products/admin.py, apps/authentication/admin.py) is not part of this model. Its bulk enable and disable actions use `queryset.update`, which does not fire the save hook, so those changes are not logged; nothing here claims they are.
- Permissions: `IsAuthenticated` is the REST framework's own class, and `IsAdminOrReadOnly` and `User.is_admin()` come from apps/authentication/permissions.py and the user model, which are not part of this model. Permission checks are not modelled; whether the user is an administrator is an input.
- apps/core/models.py (`UserTrackingModel`) is not part of this model. `created_on` is taken as set at insert and `updated_on` at every save.
- Automatic field checks of the form library are not modelled: required and non-blank fields, max_length (255 for title, 100 for SSN), max_digits and decimal places, email syntax, and the registration role's check against the user model's role choices (the model takes any role string). On login, a missing or blank field is one error (`MissingCredentials`), whether the library's field check or the "Must include" branch would report it.
- Product form inputs are the values after the form library's field parsing: title, description and SSN already stripped of surrounding whitespace, amounts already parsed into hundredths. The registration and login forms do model the stripping (`Accounts.Trimmed`, `Accounts.TrimmedField`).
- Decimal rounding: amounts are exact hundredths and the final price is an exact rational.
- Foreign calls are parameters: `authenticate`, `validate_password` (a predicate on the password) and `create_user`, which is modelled by its arguments (password hashing is left out).
- Case-insensitive matching uses ASCII lower-casing. Full Unicode case folding is left out.
- Results are sets, so the order of search results and of the keys in the "already exist" message is left out.
- The per-entry errors of a bulk request are reported as a list of error sets, without the library's exact error layout.
- Text.DecimalString: its own contract states only the rendering's shape (a point before the last two characters, a leading minus exactly for negative amounts); the value the digits carry is stated by Text.DecimalStringDenotes, kept apart so that proofs using the rendering do not have to reason about digit values.
- ChangeLog.Diff: compares values by datatype equality. Python comparisons across types, such as `True == Decimal(1)`, are left out.

=== FILE: accounts.dfy ===
/** Registration and login validation. The form library first strips
    surrounding whitespace from every string field; field checks then run
    and all of their errors are reported together; the form-level check runs
    only when every field passed. The password-strength validators and the
    authentication backend are supplied as functions. */
module Accounts {
  import opened Results
  import Text

  /** The registration form's fields; `role` is optional. */
  datatype Registration = Registration(
    email: string, username: string, password: string, password2: string, role: Option<string>)

  /** The arguments handed to `create_user`: the form without the
      confirmation field. */
  datatype NewUser = NewUser(email: string, username: string, password: string, role: Option<string>)

  datatype RegisterError = EmailTaken | UsernameTaken | PasswordRejected | PasswordMismatch

  /** The string fields as the form library hands them to the validators:
      surrounding whitespace is stripped from the email, username and both
      passwords; `role` is a choice and is kept as given. */
  function Trimmed(form: Registration): (t: Registration)
    ensures t.email == Text.Strip(form.email) && t.username == Text.Strip(form.username)
    ensures t.password == Text.Strip(form.password) && t.password2 == Text.Strip(form.password2)
    ensures t.role == form.role
  {
    Registration(Text.Strip(form.email), Text.Strip(form.username), Text.Strip(form.password),
                 Text.Strip(form.password2), form.role)
  }

  /** The field errors: an email or username already used by an existing
      user, and a password the strength validators refuse. */
  function FieldErrors(form: Registration, emails: set<string>, usernames: set<string>,
                       passwordAcceptable: string -> bool): (errs: set<RegisterError>)
    ensures EmailTaken in errs <==> form.email in emails
    ensures UsernameTaken in errs <==> form.username in usernames
    ensures PasswordRejected in errs <==> !passwordAcceptable(form.password)
    ensures PasswordMismatch !in errs
  {
    (if form.email in emails then {EmailTaken} else {})
    + (if form.username in usernames then {UsernameTaken} else {})
    + (if passwordAcceptable(form.password) then {} else {PasswordRejected})
  }

  /** `RegisterSerializer` validation: the field errors if there are any,
      otherwise the password confirmation check of `validate`. */
  function ValidateRegistration(form: Registration, emails: set<string>, usernames: set<string>,
                                passwordAcceptable: string -> bool): (r: Result<Registration, set<RegisterError>>)
    ensures r.Ok? <==>
              && form.email !in emails && form.username !in usernames
              && passwordAcceptable(form.password) && form.password == form.password2
    ensures r.Ok? ==> r.value == form
    ensures r.Err? ==> r.error != {}
    ensures r.Err? && PasswordMismatch in r.error <==>
              FieldErrors(form, emails, usernames, passwordAcceptable) == {} && form.password != form.password2
    ensures r.Err? && PasswordMismatch in r.error ==> r.error == {PasswordMismatch}
  {
    var errors := FieldErrors(form, emails, usernames, passwordAcceptable);
    if errors != {} then Err(errors)
    else if form.password != form.password2 then Err({PasswordMismatch})
    else Ok(form)
  }

  /** `RegisterSerializer.create`: the confirmation field is dropped and the
      rest goes to `create_user` unchanged. */
  function CreateUserArgs(form: Registration): (u: NewUser)
    ensures u.email == form.email && u.username == form.username
    ensures u.password == form.password && u.role == form.role
  {
    NewUser(form.email, form.username, form.password, form.role)
  }

  /** Registration end to end on the submitted strings: trimming, the
      validation, then the `create_user` call. */
  function Register(form: Registration, emails: set<string>, usernames: set<string>,
                    passwordAcceptable: string -> bool): (r: Result<NewUser, set<RegisterError>>)
    ensures r.Err? <==> ValidateRegistration(Trimmed(form), emails, usernames, passwordAcceptable).Err?
    ensures r.Err? ==> r.error == ValidateRegistration(Trimmed(form), emails, usernames, passwordAcceptable).error
    ensures r.Ok? ==> r.value == CreateUserArgs(Trimmed(form))
  {
    match ValidateRegistration(Trimmed(form), emails, usernames, passwordAcceptable)
    case Err(e) => Err(e)
    case Ok(valid) => Ok(CreateUserArgs(valid))
  }

  /** A user is only ever created with a confirmed, acceptable password and
      an unused email and username, all compared after trimming. */
  lemma RegisteredUserIsConfirmed(form: Registration, emails: set<string>, usernames: set<string>,
                                  passwordAcceptable: string -> bool)
    ensures var r := Register(form, emails, usernames, passwordAcceptable);
            r.Ok? ==> && r.value.password == Text.Strip(form.password)
                      && r.value.password == Text.Strip(form.password2)
                      && passwordAcceptable(r.value.password)
                      && r.value.email == Text.Strip(form.email) && r.value.email !in emails
                      && r.value.username == Text.Strip(form.username) && r.value.username !in usernames
  {
  }

  /** Passwords that differ only in surrounding whitespace are not a
      mismatch: the confirmation check sees them trimmed. */
  lemma PaddedConfirmationMatches(form: Registration, emails: set<string>, usernames: set<string>,
                                  passwordAcceptable: string -> bool)
    requires Text.Strip(form.password) == Text.Strip(form.password2)
    ensures var r := Register(form, emails, usernames, passwordAcceptable);
            r.Err? ==> PasswordMismatch !in r.error
  {
  }

  /** A concrete case: " pw" confirmed by "pw" is a match. */
  lemma PaddedPasswordExample()
    ensures Text.Strip(" pw") == Text.Strip("pw") == "pw"
  {
    assert Text.IsSpace(" pw"[0]);
    assert !Text.IsSpace(" pw"[1]);
    assert !Text.IsSpace("pw"[0]);
    assert !Text.IsSpace("pw"[1]);
    assert " pw"[1..] == "pw";
  }

  /** The login form as submitted; either field may be missing. */
  datatype LoginForm = LoginForm(email: Option<string>, password: Option<string>)

  /** What the authentication backend returns about a user. */
  datatype Account = Account(id: nat, isActive: bool)

  datatype LoginError = MissingCredentials | InvalidCredentials | AccountDisabled

  datatype LoginResult = LoginResult(email: string, password: string, user: Account)

  /** A field is usable when present and non-empty. */
  predicate Given(field: Option<string>) {
    field.Some? && field.value != ""
  }

  /** A submitted field as the form library hands it on: stripped of
      surrounding whitespace when present. */
  function TrimmedField(field: Option<string>): (t: Option<string>)
    ensures t.None? <==> field.None?
    ensures t.Some? ==> t.value == Text.Strip(field.value)
  {
    if field.Some? then Some(Text.Strip(field.value)) else None
  }

  /** `LoginSerializer.validate` on the trimmed fields: missing credentials
      first, then an unrecognised user, then an inactive one; on success
      the user is attached. `authenticate` is the backend, called with the
      email as the username. */
  function Login(form: LoginForm, authenticate: (string, string) -> Option<Account>): (r: Result<LoginResult, LoginError>)
    ensures var email, password := TrimmedField(form.email), TrimmedField(form.password);
            r == Err(MissingCredentials) <==> !Given(email) || !Given(password)
    ensures var email, password := TrimmedField(form.email), TrimmedField(form.password);
            r == Err(InvalidCredentials) <==>
              Given(email) && Given(password) && authenticate(email.value, password.value).None?
    ensures var email, password := TrimmedField(form.email), TrimmedField(form.password);
            r == Err(AccountDisabled) <==>
              Given(email) && Given(password)
              && authenticate(email.value, password.value).Some?
              && !authenticate(email.value, password.value).value.isActive
    ensures var email, password := TrimmedField(form.email), TrimmedField(form.password);
            r.Ok? ==>
              && email.Some? && password.Some?
              && r.value.email == email.value && r.value.password == password.value
              && Some(r.value.user) == authenticate(email.value, password.value)
              && r.value.user.isActive
  {
    var email, password := TrimmedField(form.email), TrimmedField(form.password);
    if Given(email) && Given(password) then
      var user := authenticate(email.value, password.value);
      if user.None? then Err(InvalidCredentials)
      else if !user.value.isActive then Err(AccountDisabled)
      else Ok(LoginResult(email.value, password.value, user.value))
    else
      Err(MissingCredentials)
  }

  /** A login succeeds exactly for given credentials the backend accepts
      for an active account. */
  lemma LoginSucceedsIff(form: LoginForm, authenticate: (string, string) -> Option<Account>)
    ensures var email, password := TrimmedField(form.email), TrimmedField(form.password);
            Login(form, authenticate).Ok? <==>
              Given(email) && Given(password)
              && authenticate(email.value, password.value).Some?
              && authenticate(email.value, password.value).value.isActive
  {
  }
}

=== FILE: catalog.dfy ===
/** The catalog's entities: `Product` with its bounded amounts, derived final
    price and soft-delete transition, and the change-log record with its four
    actions. Monetary amounts are two-place decimals held as whole
    hundredths, so 12.50 is 1250. */
module Catalog {
  import opened Results

  /** A user's primary key. */
  type UserId = nat

  /** `MinValueValidator(0.01)` on price, in hundredths. */
  const MinPrice: int := 1
  /** `MaxValueValidator(100.00)` on discount, in hundredths. */
  const MaxDiscount: int := 10000

  datatype Product = Product(
    id: nat,
    title: string,
    description: string,
    price: int,
    discount: int,
    ssn: string,
    isActive: bool,
    createdBy: Option<UserId>,
    updatedBy: Option<UserId>,
    createdOn: int,
    updatedOn: int)

  /** The validators declared on the price and discount columns. */
  predicate WithinBounds(p: Product) {
    MinPrice <= p.price && 0 <= p.discount <= MaxDiscount
  }

  /** A freshly constructed row: discount falls back to its declared default
      of 0.00 and the row starts active; both timestamps are the save time. */
  function NewProduct(id: nat, title: string, description: string, price: int,
                      discount: Option<int>, ssn: string,
                      createdBy: Option<UserId>, updatedBy: Option<UserId>, now: int): (p: Product)
    ensures p.id == id && p.title == title && p.description == description
    ensures p.price == price && p.ssn == ssn
    ensures discount.None? ==> p.discount == 0
    ensures discount.Some? ==> p.discount == discount.value
    ensures p.isActive
    ensures p.createdBy == createdBy && p.updatedBy == updatedBy
    ensures p.createdOn == now && p.updatedOn == now
  {
    Product(id, title, description, price, discount.GetOr(0), ssn, true,
            createdBy, updatedBy, now, now)
  }

  /** An amount in hundredths as a currency value. */
  function AsMoney(hundredths: int): real {
    hundredths as real / 100.0
  }

  /** `final_price`: the price less the discount percentage, applied only
      when the discount is positive. */
  function FinalPrice(p: Product): (r: real)
    ensures p.discount <= 0 ==> r == AsMoney(p.price)
    ensures p.discount > 0 ==> r * 1000000.0 == (p.price * (10000 - p.discount)) as real
  {
    var price := AsMoney(p.price);
    if p.discount > 0 then
      var discountAmount := price * (AsMoney(p.discount) / 100.0);
      price - discountAmount
    else
      price
  }

  /** Within the declared bounds the final price is never negative and never
      above the price. */
  lemma FinalPriceWithinPrice(p: Product)
    requires WithinBounds(p)
    ensures 0.0 <= FinalPrice(p) <= AsMoney(p.price)
  {
    var r := FinalPrice(p);
    if p.discount > 0 {
      assert 0 <= 10000 - p.discount <= 10000;
      assert 0 <= p.price * (10000 - p.discount) <= p.price * 10000 by {
        assert p.price * (10000 - p.discount) == p.price * 10000 - p.price * p.discount;
        assert p.price * p.discount >= 0;
      }
      assert r * 1000000.0 <= (p.price * 10000) as real;
    }
  }

  /** `soft_delete(user)`: the row becomes inactive and, when a user is
      given, records that user as the last editor. No other column moves;
      the save that follows stamps `updated_on`. */
  function SoftDelete(p: Product, user: Option<UserId>): (q: Product)
    ensures !q.isActive
    ensures user.Some? ==> q.updatedBy == user
    ensures user.None? ==> q.updatedBy == p.updatedBy
    ensures q.(isActive := p.isActive, updatedBy := p.updatedBy) == p
  {
    var q := p.(isActive := false);
    if user.Some? then q.(updatedBy := user) else q
  }

  /** Soft-deleting twice with the same user is the same as doing it once. */
  lemma SoftDeleteIdempotent(p: Product, user: Option<UserId>)
    ensures SoftDelete(SoftDelete(p, user), user) == SoftDelete(p, user)
  {
  }

  /** The four kinds of change-log entry. */
  datatype Action = Created | Updated | Deleted | Disabled {

    /** The value stored in the `action` column. */
    function Code(): string {
      match this
      case Created => "CREATED"
      case Updated => "UPDATED"
      case Deleted => "DELETED"
      case Disabled => "DISABLED"
    }
  }

  /** Reads an `action` column value back; only the four codes are choices. */
  function ParseAction(code: string): (a: Option<Action>)
    ensures a.Some? ==> a.value.Code() == code
  {
    if code == "CREATED" then Some(Created)
    else if code == "UPDATED" then Some(Updated)
    else if code == "DELETED" then Some(Deleted)
    else if code == "DISABLED" then Some(Disabled)
    else None
  }

  /** Every action's code is one of the declared choices, fits the column's
      ten characters, and reads back as the same action. */
  lemma ActionCodesRoundTrip(a: Action)
    ensures ParseAction(a.Code()) == Some(a)
    ensures |a.Code()| <= 10
  {
  }

  /** One `{"old": ..., "new": ...}` entry of an update diff. */
  datatype Change = Change(before: string, after: string)

  /** The JSON `changes` column: either `{"message": text}` or a map from
      field name to its change. */
  datatype Payload = Message(text: string) | FieldChanges(fields: map<string, Change>)

  /** A `ProductChangeLog` row. */
  datatype ChangeRecord = ChangeRecord(
    productId: nat,
    action: Action,
    changedBy: Option<UserId>,
    changes: Payload,
    changedAt: int)
}

=== FILE: changelog.dfy ===
/** The change recorder that runs after every product save and before every
    physical delete. A create writes a fixed marker; an update diffs five
    tracked fields against a before-snapshot, when the instance carries one,
    and is labelled DISABLED whenever the saved row is inactive. */
module ChangeLog {
  import opened Results
  import opened Catalog
  import Text

  /** The allow-list of fields an update diff compares, in order. */
  const TrackedFields: seq<string> := ["title", "description", "price", "discount", "is_active"]

  /** A Python attribute value as the recorder sees it. */
  datatype Value = Str(s: string) | Amount(hundredths: int) | Flag(b: bool)

  /** `str(value)`, where an absent attribute reads as `None`. */
  function Render(v: Option<Value>): string {
    match v
    case None => "None"
    case Some(Str(s)) => s
    case Some(Amount(h)) => Text.DecimalString(h)
    case Some(Flag(b)) => Text.BoolString(b)
  }

  /** `getattr(product, field)` for a tracked field. */
  function FieldValue(p: Product, field: string): Value
    requires field in TrackedFields
  {
    if field == "title" then Str(p.title)
    else if field == "description" then Str(p.description)
    else if field == "price" then Amount(p.price)
    else if field == "discount" then Amount(p.discount)
    else Flag(p.isActive)
  }

  /** The attributes of the before-image attached to an instance; a
      missing attribute reads as `None`. */
  type Snapshot = map<string, Value>

  function Attribute(s: Snapshot, field: string): Option<Value> {
    if field in s then Some(s[field]) else None
  }

  /** A before-image holding all five tracked fields of a product. */
  function SnapshotOf(p: Product): (s: Snapshot)
    ensures forall f :: f in TrackedFields ==> Attribute(s, f) == Some(FieldValue(p, f))
  {
    map f | f in TrackedFields :: FieldValue(p, f)
  }

  /** The field diff of an update: without a before-image nothing is
      compared; otherwise each tracked field whose old and new values differ
      maps to their string forms. */
  function Diff(before: Option<Snapshot>, p: Product): (d: map<string, Change>)
    ensures d.Keys <= set f | f in TrackedFields
    ensures before.None? ==> d == map[]
    ensures forall f :: f in TrackedFields ==>
              (f in d <==> before.Some? && Attribute(before.value, f) != Some(FieldValue(p, f)))
    ensures forall f :: f in d ==>
              d[f] == Change(Render(Attribute(before.value, f)), Render(Some(FieldValue(p, f))))
  {
    if before.None? then map[]
    else
      map f | f in TrackedFields && Attribute(before.value, f) != Some(FieldValue(p, f))
        :: Change(Render(Attribute(before.value, f)), Render(Some(FieldValue(p, f))))
  }

  const CreatedMessage := "Product created"
  const UpdatedMessage := "Product updated"
  const DeletedMessage := "Product deleted"

  /** The record written after a save: `created` tells a first insert from
      an update. */
  function RecordSave(created: bool, p: Product, before: Option<Snapshot>, now: int): (r: ChangeRecord)
    ensures r.productId == p.id && r.changedAt == now
    ensures created ==> r.action == Created && r.changedBy == p.createdBy
                        && r.changes == Message(CreatedMessage)
    ensures !created ==> r.changedBy == p.updatedBy
    ensures !created ==> (r.action == Disabled <==> !p.isActive)
    ensures !created ==> (r.action == Updated <==> p.isActive)
    ensures !created && Diff(before, p) == map[] ==> r.changes == Message(UpdatedMessage)
    ensures !created && Diff(before, p) != map[] ==> r.changes == FieldChanges(Diff(before, p))
    ensures r.changes.FieldChanges? ==> |r.changes.fields| > 0
  {
    if created then
      ChangeRecord(p.id, Created, p.createdBy, Message(CreatedMessage), now)
    else
      var changes := Diff(before, p);
      var action := if !p.isActive then Disabled else Updated;
      ChangeRecord(p.id, action, p.updatedBy,
                   if changes != map[] then FieldChanges(changes) else Message(UpdatedMessage), now)
  }

  /** The record written before a physical delete. */
  function RecordDelete(p: Product, now: int): (r: ChangeRecord)
    ensures r.productId == p.id && r.action == Deleted
    ensures r.changedBy == p.updatedBy
    ensures r.changes == Message(DeletedMessage) && r.changedAt == now
  {
    ChangeRecord(p.id, Deleted, p.updatedBy, Message(DeletedMessage), now)
  }

  /** Diffing a product against its own image finds no change. */
  lemma DiffAgainstSelfIsEmpty(p: Product)
    ensures Diff(Some(SnapshotOf(p)), p) == map[]
  {
  }

  /** Against a full image of the old row, the diff names exactly the
      tracked fields whose values moved. */
  lemma DiffNamesChangedFields(prior: Product, p: Product)
    ensures Diff(Some(SnapshotOf(prior)), p).Keys ==
            set f | f in TrackedFields && FieldValue(prior, f) != FieldValue(p, f)
  {
  }

  /** Changing title and price, and nothing else tracked, yields an UPDATED
      record for an active row whose payload holds exactly those two fields
      with their old and new string forms. */
  lemma TitleAndPriceUpdate(prior: Product, title: string, price: int, now: int)
    requires prior.isActive && title != prior.title && price != prior.price
    ensures var p := prior.(title := title, price := price);
            var r := RecordSave(false, p, Some(SnapshotOf(prior)), now);
            && r.action == Updated
            && r.changes == FieldChanges(map[
                 "title" := Change(prior.title, title),
                 "price" := Change(Text.DecimalString(prior.price), Text.DecimalString(price))])
  {
    var p := prior.(title := title, price := price);
    var d := Diff(Some(SnapshotOf(prior)), p);
    TitleAndPriceDiffKeys(prior, p);
    var expected := map[
                 "title" := Change(prior.title, title),
                 "price" := Change(Text.DecimalString(prior.price), Text.DecimalString(price))];
    assert d["title"] == expected["title"];
    assert d["price"] == expected["price"];
    assert d == expected;
  }

  /** A tracked field is one of the five names. */
  lemma TrackedFieldCases(f: string)
    requires f in TrackedFields
    ensures f == "title" || f == "description" || f == "price" || f == "discount" || f == "is_active"
  {
  }

  lemma TitleAndPriceDiffKeys(prior: Product, p: Product)
    requires p == prior.(title := p.title, price := p.price)
    requires p.title != prior.title && p.price != prior.price
    ensures Diff(Some(SnapshotOf(prior)), p).Keys == {"title", "price"}
  {
    var d := Diff(Some(SnapshotOf(prior)), p);
    assert FieldValue(p, "title") != FieldValue(prior, "title");
    assert FieldValue(p, "price") != FieldValue(prior, "price");
    forall f | f in d
      ensures f == "title" || f == "price"
    {
      TrackedFieldCases(f);
    }
  }

  /** Saving an already inactive row is logged as DISABLED even when
      nothing changed, with the update marker as payload. */
  lemma InactiveResaveIsDisabled(p: Product, now: int)
    requires !p.isActive
    ensures RecordSave(false, p, Some(SnapshotOf(p)), now)
            == ChangeRecord(p.id, Disabled, p.updatedBy, Message(UpdatedMessage), now)
  {
    DiffAgainstSelfIsEmpty(p);
  }

  /** The save after `soft_delete(user)` of an active row is logged as
      DISABLED by that user, and its diff against the old row is the flag
      alone. */
  lemma SoftDeleteIsLoggedDisabled(p: Product, user: UserId, now: int)
    requires p.isActive
    ensures var r := RecordSave(false, SoftDelete(p, Some(user)), Some(SnapshotOf(p)), now);
            && r.action == Disabled && r.changedBy == Some(user)
            && r.changes == FieldChanges(map["is_active" := Change("True", "False")])
  {
    var q := SoftDelete(p, Some(user));
    var d := Diff(Some(SnapshotOf(p)), q);
    assert FieldValue(q, "is_active") != FieldValue(p, "is_active");
    forall f | f in d
      ensures f == "is_active"
    {
      TrackedFieldCases(f);
    }
    assert d.Keys == {"is_active"};
  }
}

=== FILE: forms.dfy ===
/** Input validation for products: the per-field checks shared by the create
    and update forms, the batch checks of bulk creation, and the bulk
    creation itself. Only the checks the forms declare are modelled; each
    field check reports at most one error. */
module Forms {
  import opened Results
  import opened Catalog
  import Store
  import ChangeLog

  /** The writable fields of the create form (the image is not modelled);
      an absent discount takes the column default. */
  datatype ProductInput = ProductInput(
    title: string, description: string, price: int, discount: Option<int>, ssn: string)

  /** The fields an update supplies; an absent field is left as it is. */
  datatype ProductPatch = ProductPatch(
    title: Option<string>, description: Option<string>, price: Option<int>,
    discount: Option<int>, ssn: Option<string>)

  datatype FieldError = PriceNotPositive | DiscountOutOfRange | SsnExists

  /** `validate_price`, identical on both forms. */
  function CheckPrice(price: int): (e: Option<FieldError>)
    ensures e.None? <==> price > 0
    ensures e.Some? ==> e.value == PriceNotPositive
  {
    if price <= 0 then Some(PriceNotPositive) else None
  }

  /** `validate_discount`, identical on both forms; both ends are allowed. */
  function CheckDiscount(discount: int): (e: Option<FieldError>)
    ensures e.None? <==> 0 <= discount <= MaxDiscount
    ensures e.Some? ==> e.value == DiscountOutOfRange
  {
    if discount < 0 || discount > MaxDiscount then Some(DiscountOutOfRange) else None
  }

  /** The create form's `validate_ssn`: any stored row holding the key,
      active or not, is a conflict. */
  function CheckNewSsn(products: map<nat, Product>, ssn: string): (e: Option<FieldError>)
    ensures e.None? <==> forall id :: id in products ==> products[id].ssn != ssn
    ensures e.Some? ==> e.value == SsnExists
  {
    if ssn in Store.Ssns(products) then Some(SsnExists) else None
  }

  /** The update form's `validate_ssn`: with an instance being edited only
      another row holding the key is a conflict; without one it behaves as
      on create. */
  function CheckEditedSsn(products: map<nat, Product>, instance: Option<nat>, ssn: string): (e: Option<FieldError>)
    ensures instance.Some? ==>
              (e.None? <==> forall id :: id in products && id != instance.value ==> products[id].ssn != ssn)
    ensures instance.None? ==> e == CheckNewSsn(products, ssn)
    ensures e.Some? ==> e.value == SsnExists
  {
    if instance.Some? then
      if Store.HeldByOther(products, ssn, instance.value) then Some(SsnExists) else None
    else
      CheckNewSsn(products, ssn)
  }

  /** The errors of the checks that ran. */
  function Errors(checks: seq<Option<FieldError>>): (errs: set<FieldError>)
    ensures forall e :: e in errs <==> Some(e) in checks
  {
    set c | c in checks && c.Some? :: c.value
  }

  /** Every field error of a create form; the form is accepted when there
      is none. A discount that is not supplied is not checked. */
  function CreateErrors(products: map<nat, Product>, input: ProductInput): (errs: set<FieldError>)
    ensures PriceNotPositive in errs <==> input.price <= 0
    ensures DiscountOutOfRange in errs <==>
              input.discount.Some? && !(0 <= input.discount.value <= MaxDiscount)
    ensures SsnExists in errs <==> input.ssn in Store.Ssns(products)
  {
    Errors([CheckPrice(input.price),
            if input.discount.Some? then CheckDiscount(input.discount.value) else None,
            CheckNewSsn(products, input.ssn)])
  }

  /** Every field error of an update form editing `instance`; only the
      supplied fields are checked. */
  function UpdateErrors(products: map<nat, Product>, instance: Option<nat>, patch: ProductPatch): (errs: set<FieldError>)
    ensures PriceNotPositive in errs <==> patch.price.Some? && patch.price.value <= 0
    ensures DiscountOutOfRange in errs <==>
              patch.discount.Some? && !(0 <= patch.discount.value <= MaxDiscount)
    ensures SsnExists in errs <==>
              patch.ssn.Some? && CheckEditedSsn(products, instance, patch.ssn.value).Some?
  {
    Errors([if patch.price.Some? then CheckPrice(patch.price.value) else None,
            if patch.discount.Some? then CheckDiscount(patch.discount.value) else None,
            if patch.ssn.Some? then CheckEditedSsn(products, instance, patch.ssn.value) else None])
  }

  /** Keeping one's own business key is never a conflict on update. */
  lemma OwnSsnIsAccepted(products: map<nat, Product>, id: nat)
    requires id in products && Store.SsnUnique(products)
    ensures CheckEditedSsn(products, Some(id), products[id].ssn).None?
  {
  }

  /** The input satisfies the price and discount bounds the columns
      declare; an absent discount takes the default 0. */
  predicate InBounds(input: ProductInput) {
    MinPrice <= input.price && 0 <= input.discount.GetOr(0) <= MaxDiscount
  }

  /** A create form with no errors is within the column bounds, and so is
      the row it builds. */
  lemma AcceptedInputWithinBounds(products: map<nat, Product>, input: ProductInput, id: nat,
                                  user: Option<UserId>, now: int)
    requires CreateErrors(products, input) == {}
    ensures InBounds(input)
    ensures WithinBounds(NewProduct(id, input.title, input.description, input.price,
                                    input.discount, input.ssn, user, user, now))
  {
    assert PriceNotPositive !in CreateErrors(products, input);
    assert DiscountOutOfRange !in CreateErrors(products, input);
  }

  // ---- bulk creation ----

  datatype BulkError = EmptyList | DuplicateSsns | ExistingSsns(ssns: set<string>)

  /** The business keys of a batch, in order. */
  function SsnList(batch: seq<ProductInput>): (s: seq<string>)
    ensures |s| == |batch|
    ensures forall i :: 0 <= i < |batch| ==> s[i] == batch[i].ssn
  {
    seq(|batch|, i requires 0 <= i < |batch| => batch[i].ssn)
  }

  function SetOf(s: seq<string>): set<string> {
    set x | x in s
  }

  /** Some key occurs twice. */
  predicate HasRepeat(s: seq<string>) {
    exists i, j :: 0 <= i < j < |s| && s[i] == s[j]
  }

  lemma {:induction false} SetOfSizeAtMostLength(s: seq<string>)
    ensures |SetOf(s)| <= |s|
    decreases |s|
  {
    if |s| > 0 {
      SetOfSizeAtMostLength(s[1..]);
      assert SetOf(s) == {s[0]} + SetOf(s[1..]);
    }
  }

  /** `len(ssns) != len(set(ssns))` detects exactly a repeated key. */
  lemma {:induction false} SetSizeDetectsRepeat(s: seq<string>)
    ensures |SetOf(s)| == |s| <==> !HasRepeat(s)
    decreases |s|
  {
    if |s| > 0 {
      var t := s[1..];
      SetSizeDetectsRepeat(t);
      SetOfSizeAtMostLength(t);
      assert SetOf(s) == {s[0]} + SetOf(t);
      if s[0] in t {
        var j :| 0 <= j < |t| && t[j] == s[0];
        assert s[0] == s[j + 1];
        assert SetOf(s) == SetOf(t);
      } else {
        assert s[0] !in SetOf(t);
        if HasRepeat(t) {
          var i, j :| 0 <= i < j < |t| && t[i] == t[j];
          assert s[i + 1] == s[j + 1];
        }
        if HasRepeat(s) {
          var i, j :| 0 <= i < j < |s| && s[i] == s[j];
          assert i > 0;
          assert t[i - 1] == t[j - 1];
        }
      }
    }
  }

  /** `validate_products`: an empty batch, then a repeated key within the
      batch, then keys already stored (all of them reported). */
  function ValidateProducts(products: map<nat, Product>, batch: seq<ProductInput>): (r: Result<seq<ProductInput>, BulkError>)
    ensures r == Err(EmptyList) <==> |batch| == 0
    ensures r == Err(DuplicateSsns) <==> |batch| > 0 && HasRepeat(SsnList(batch))
    ensures r.Err? && r.error.ExistingSsns? ==>
              |batch| > 0 && !HasRepeat(SsnList(batch))
              && r.error.ssns != {}
              && forall s :: s in r.error.ssns <==> s in SsnList(batch) && s in Store.Ssns(products)
    ensures r.Ok? <==>
              |batch| > 0 && !HasRepeat(SsnList(batch))
              && forall i :: 0 <= i < |batch| ==> batch[i].ssn !in Store.Ssns(products)
    ensures r.Ok? ==> r.value == batch
  {
    var ssns := SsnList(batch);
    SetSizeDetectsRepeat(ssns);
    if |batch| == 0 then Err(EmptyList)
    else if |SetOf(ssns)| != |ssns| then Err(DuplicateSsns)
    else
      var existing := set s | s in ssns && s in Store.Ssns(products);
      if existing != {} then Err(ExistingSsns(existing))
      else
        assert forall i :: 0 <= i < |batch| ==> ssns[i] !in existing;
        Ok(batch)
  }

  /** The CREATED records of `count` consecutive new rows from `first`. */
  function CreatedRecords(first: nat, count: nat, user: UserId, now: int): (r: seq<ChangeRecord>)
    ensures |r| == count
    ensures forall i :: 0 <= i < count ==>
              r[i] == ChangeRecord(first + i, Created, Some(user), Message(ChangeLog.CreatedMessage), now)
  {
    seq(count, i requires 0 <= i < count =>
          ChangeRecord(first + i, Created, Some(user), Message(ChangeLog.CreatedMessage), now))
  }

  datatype Batch = Batch(db: Store.Db, products: seq<Product>)

  /** A stored row carries what its input supplied. */
  predicate Carries(p: Product, input: ProductInput) {
    && p.title == input.title && p.description == input.description
    && p.price == input.price && p.discount == input.discount.GetOr(0)
    && p.ssn == input.ssn && p.isActive
  }

  /** The rows a batch becomes: consecutive ids from `first`, each stamped
      with the requesting user as creator and last editor. */
  function NewRows(first: nat, batch: seq<ProductInput>, user: UserId, now: int): (r: seq<Product>)
    ensures |r| == |batch|
    ensures forall i :: 0 <= i < |batch| ==>
              && Carries(r[i], batch[i]) && r[i].id == first + i
              && r[i].createdBy == Some(user) && r[i].updatedBy == Some(user)
              && r[i].createdOn == now && r[i].updatedOn == now
  {
    seq(|batch|, i requires 0 <= i < |batch| =>
          NewProduct(first + i, batch[i].title, batch[i].description, batch[i].price,
                     batch[i].discount, batch[i].ssn, Some(user), Some(user), now))
  }

  lemma NewRowsCons(first: nat, batch: seq<ProductInput>, user: UserId, now: int)
    requires |batch| > 0
    ensures NewRows(first, batch, user, now)
            == [NewProduct(first, batch[0].title, batch[0].description, batch[0].price,
                           batch[0].discount, batch[0].ssn, Some(user), Some(user), now)]
               + NewRows(first + 1, batch[1..], user, now)
  {
  }

  lemma CreatedRecordsCons(first: nat, count: nat, user: UserId, now: int)
    requires count > 0
    ensures CreatedRecords(first, count, user, now)
            == [ChangeRecord(first, Created, Some(user), Message(ChangeLog.CreatedMessage), now)]
               + CreatedRecords(first + 1, count - 1, user, now)
  {
  }

  /** `products` with `rows` stored under consecutive ids from `first`,
      one after the other. */
  function Placed(products: map<nat, Product>, first: nat, rows: seq<Product>): (m: map<nat, Product>)
    ensures forall id :: id in m <==> id in products || first <= id < first + |rows|
    ensures forall id :: id in products && !(first <= id < first + |rows|) ==> m[id] == products[id]
    ensures forall id :: first <= id < first + |rows| ==> m[id] == rows[id - first]
    decreases |rows|
  {
    if |rows| == 0 then products
    else Placed(products[first := rows[0]], first + 1, rows[1..])
  }

  /** The bulk form's `create`: one insert per input, in order, each
      followed by its CREATED record. */
  function CreateAll(db: Store.Db, batch: seq<ProductInput>, user: UserId, now: int): (b: Batch)
    ensures b.products == NewRows(db.nextId, batch, user, now)
    ensures b.db.nextId == db.nextId + |batch|
    ensures b.db.logs == db.logs + CreatedRecords(db.nextId, |batch|, user, now)
    ensures b.db.products == Placed(db.products, db.nextId, b.products)
    decreases |batch|
  {
    if |batch| == 0 then Batch(db, [])
    else
      var input := batch[0];
      var s := Store.Insert(db, input.title, input.description, input.price, input.discount,
                            input.ssn, Some(user), Some(user), now);
      var rest := CreateAll(s.db, batch[1..], user, now);
      NewRowsCons(db.nextId, batch, user, now);
      CreatedRecordsCons(db.nextId, |batch|, user, now);
      assert ([s.product] + rest.products)[1..] == rest.products;
      Batch(rest.db, [s.product] + rest.products)
  }

  /** A batch that passed validation keeps the table valid when created. */
  lemma {:induction false} CreateAllKeepsValid(db: Store.Db, batch: seq<ProductInput>, user: UserId, now: int)
    requires Store.Valid(db)
    requires !HasRepeat(SsnList(batch))
    requires forall i :: 0 <= i < |batch| ==> batch[i].ssn !in Store.Ssns(db.products)
    requires forall i :: 0 <= i < |batch| ==> InBounds(batch[i])
    ensures Store.Valid(CreateAll(db, batch, user, now).db)
    decreases |batch|
  {
    if |batch| > 0 {
      var input := batch[0];
      var s := Store.Insert(db, input.title, input.description, input.price, input.discount,
                            input.ssn, Some(user), Some(user), now);
      Store.InsertKeepsValid(db, input.title, input.description, input.price, input.discount,
                             input.ssn, Some(user), Some(user), now);
      var t := batch[1..];
      assert !HasRepeat(SsnList(t));
      forall i | 0 <= i < |t|
        ensures t[i].ssn !in Store.Ssns(s.db.products)
      {
        assert SsnList(batch)[0] != SsnList(batch)[i + 1];
      }
      CreateAllKeepsValid(s.db, t, user, now);
    }
  }
}

=== FILE: ratelimit.dfy ===
/** The rate-limit middleware as a step function over the shared cache.
    A request outside the admin site is counted against a per-identity key:
    the stored count is read (a missing or expired entry reads as 0), the
    request is refused when that count has reached the limit, and otherwise
    count + 1 is stored with a fresh 60-second expiry. Time is whole seconds
    supplied by the caller. */
module RateLimit {
  import opened Results
  import Text

  /** The cache timeout given to every write, in seconds. */
  const Window: int := 60
  const AdminLimit: nat := 1000
  const UserLimit: nat := 100
  const AnonymousLimit: nat := 10
  const AdminPrefix := "/admin/"
  const UserKeyPrefix := "rate_limit_user_"
  const IpKeyPrefix := "rate_limit_ip_"

  /** Who is asking: an anonymous client, or a user with a primary key and
      possibly a `role` attribute. */
  datatype Identity = Anonymous | Authenticated(id: nat, role: Option<string>)

  /** The parts of a request the middleware reads: the path, the user, and
      the `X-Forwarded-For` and `REMOTE_ADDR` meta values when present. */
  datatype Request = Request(path: string, identity: Identity,
                             forwardedFor: Option<string>, remoteAddr: Option<string>)

  /** A cached counter and the second at which it expires. */
  datatype Entry = Entry(count: nat, expiresAt: int)

  type Cache = map<string, Entry>

  /** The outcome: the admin site is passed through uncounted, a refusal
      carries the limit (the 429 response), and an admission carries the
      values of the three rate-limit headers. */
  datatype Decision = Bypassed | Rejected(limit: nat) | Admitted(limit: nat, remaining: int, resetAt: int)

  datatype Step = Step(cache: Cache, decision: Decision)

  /** The per-minute limit of an identity's tier. */
  function Limit(who: Identity): (l: nat)
    ensures l == AdminLimit <==> who.Authenticated? && who.role == Some("admin")
    ensures l == UserLimit <==> who.Authenticated? && who.role != Some("admin")
    ensures l == AnonymousLimit <==> who.Anonymous?
  {
    match who
    case Anonymous => AnonymousLimit
    case Authenticated(_, role) => if role == Some("admin") then AdminLimit else UserLimit
  }

  /** `get_client_ip`: the first comma-separated entry of a non-empty
      forwarded-for header, else the peer address (which may be absent). */
  function ClientIp(req: Request): (ip: Option<string>)
    ensures req.forwardedFor.Some? && req.forwardedFor.value != "" ==>
              var header := req.forwardedFor.value;
              && ip.Some? && ip.value <= header && ',' !in ip.value
              && (|ip.value| == |header| || header[|ip.value|] == ',')
    ensures (req.forwardedFor.None? || req.forwardedFor.value == "") ==> ip == req.remoteAddr
  {
    if req.forwardedFor.Some? && req.forwardedFor.value != "" then
      Some(Text.FirstSegment(req.forwardedFor.value, ','))
    else
      req.remoteAddr
  }

  /** The counter key of an authenticated user. */
  function UserKey(id: nat): string {
    UserKeyPrefix + Text.NatToString(id)
  }

  /** The counter key of an anonymous client; an absent address formats as
      "None". */
  function IpKey(ip: Option<string>): string {
    IpKeyPrefix + (if ip.Some? then ip.value else "None")
  }

  function CounterKey(req: Request): string {
    match req.identity
    case Anonymous => IpKey(ClientIp(req))
    case Authenticated(id, _) => UserKey(id)
  }

  /** A user counter and a client counter never share a key. */
  lemma KeysNeverCollide(id: nat, ip: Option<string>)
    ensures UserKey(id) != IpKey(ip)
    ensures !(IpKeyPrefix <= UserKey(id))
  {
    assert UserKey(id)[11] == 'u';
    assert IpKey(ip)[11] == 'i';
  }

  /** Distinct users have distinct counters. */
  lemma UserKeysDistinct(a: nat, b: nat)
    requires a != b
    ensures UserKey(a) != UserKey(b)
  {
    Text.NatToStringInjective(a, b);
    assert Text.NatToString(a) == UserKey(a)[|UserKeyPrefix|..];
    assert Text.NatToString(b) == UserKey(b)[|UserKeyPrefix|..];
  }

  /** `cache.get(key, 0)`: a missing or expired entry reads as 0. */
  function Current(cache: Cache, key: string, now: int): nat {
    if key in cache && now < cache[key].expiresAt then cache[key].count else 0
  }

  /** `RateLimitMiddleware.__call__` on one request at second `now`. */
  function Handle(cache: Cache, now: int, req: Request): (s: Step)
    ensures s.decision.Bypassed? <==> Text.StartsWith(req.path, AdminPrefix)
    ensures s.decision.Bypassed? ==> s.cache == cache
    ensures !s.decision.Bypassed? ==>
              var limit := Limit(req.identity);
              var key := CounterKey(req);
              var count := Current(cache, key, now);
              && (s.decision.Rejected? <==> count >= limit)
              && (s.decision.Rejected? ==> s.cache == cache && s.decision.limit == limit)
              && (s.decision.Admitted? ==>
                    && s.cache == cache[key := Entry(count + 1, now + Window)]
                    && s.decision.limit == limit
                    && s.decision.remaining == limit - count - 1
                    && 0 <= s.decision.remaining < limit
                    && s.decision.resetAt == now + Window)
  {
    if Text.StartsWith(req.path, AdminPrefix) then Step(cache, Bypassed)
    else
      var limit := Limit(req.identity);
      var key := CounterKey(req);
      var count := Current(cache, key, now);
      if count >= limit then Step(cache, Rejected(limit))
      else Step(cache[key := Entry(count + 1, now + Window)], Admitted(limit, limit - count - 1, now + Window))
  }

  datatype Trace = Trace(cache: Cache, decisions: seq<Decision>)

  /** The same request repeated at the given seconds, in order. */
  function Run(cache: Cache, req: Request, times: seq<int>): (t: Trace)
    ensures |t.decisions| == |times|
    decreases |times|
  {
    if |times| == 0 then Trace(cache, [])
    else
      var first := Handle(cache, times[0], req);
      var rest := Run(first.cache, req, times[1..]);
      Trace(rest.cache, [first.decision] + rest.decisions)
  }

  /** Within one window, a key that reads `count` throughout admits the
      next `limit - count` requests with the remaining quota counting down,
      and refuses every later one. */
  lemma {:induction false} RunWithinWindow(cache: Cache, req: Request, times: seq<int>, start: int, count: nat)
    requires !Text.StartsWith(req.path, AdminPrefix)
    requires forall i :: 0 <= i < |times| ==> start <= times[i] < start + Window
    requires forall t :: start <= t < start + Window ==> Current(cache, CounterKey(req), t) == count
    ensures var limit := Limit(req.identity);
            forall i :: 0 <= i < |times| ==>
              Run(cache, req, times).decisions[i] ==
                if count + i < limit then Admitted(limit, limit - count - i - 1, times[i] + Window)
                else Rejected(limit)
    decreases |times|
  {
    if |times| > 0 {
      var limit := Limit(req.identity);
      var key := CounterKey(req);
      var first := Handle(cache, times[0], req);
      var next := if count < limit then count + 1 else count;
      forall t | start <= t < start + Window
        ensures Current(first.cache, key, t) == next
      {
        if count < limit {
          assert first.cache[key] == Entry(count + 1, times[0] + Window);
        }
      }
      RunWithinWindow(first.cache, req, times[1..], start, next);
      var run := Run(cache, req, times);
      var rest := Run(first.cache, req, times[1..]);
      forall i | 0 <= i < |times|
        ensures run.decisions[i] ==
                  if count + i < limit then Admitted(limit, limit - count - i - 1, times[i] + Window)
                  else Rejected(limit)
      {
        if i > 0 {
          assert run.decisions[i] == rest.decisions[i - 1];
          assert times[1..][i - 1] == times[i];
        }
      }
    }
  }

  /** From a key with no live counter, requests 1..limit inside one minute
      are admitted with remaining limit-1 down to 0, and every request
      after them in that minute is refused. */
  lemma FreshKeyRun(cache: Cache, req: Request, times: seq<int>, start: int)
    requires !Text.StartsWith(req.path, AdminPrefix)
    requires CounterKey(req) !in cache
    requires forall i :: 0 <= i < |times| ==> start <= times[i] < start + Window
    ensures var limit := Limit(req.identity);
            var decisions := Run(cache, req, times).decisions;
            && (forall i :: 0 <= i < |times| && i < limit ==>
                  decisions[i] == Admitted(limit, limit - 1 - i, times[i] + Window))
            && (forall i :: limit <= i < |times| ==> decisions[i] == Rejected(limit))
  {
    RunWithinWindow(cache, req, times, start, 0);
  }

  /** A counter whose entry has expired starts over: the request is the
      first of a new count. */
  lemma ExpiredEntryStartsOver(cache: Cache, now: int, req: Request)
    requires !Text.StartsWith(req.path, AdminPrefix)
    requires CounterKey(req) in cache && cache[CounterKey(req)].expiresAt <= now
    ensures var limit := Limit(req.identity);
            var s := Handle(cache, now, req);
            && s.decision == Admitted(limit, limit - 1, now + Window)
            && s.cache[CounterKey(req)] == Entry(1, now + Window)
  {
  }

  /** Each admitted request pushes the expiry forward, so steady traffic
      keeps one count alive past a minute: requests at 0 and 59 leave the
      count at 2 when read at 100. */
  lemma AdmissionExtendsExpiry(req: Request)
    requires !Text.StartsWith(req.path, AdminPrefix)
    ensures var key := CounterKey(req);
            var after := Run(map[], req, [0, 59]).cache;
            Current(after, key, 100) == 2
  {
    var key := CounterKey(req);
    var s0 := Handle(map[], 0, req);
    var s1 := Handle(s0.cache, 59, req);
    assert s1.cache[key] == Entry(2, 119);
    assert [0, 59][1..] == [59];
    assert [59][1..] == [];
  }

  /** The most a key's counter can reach: client keys are anonymous and
      capped at their limit, every other key at the largest tier. */
  function Cap(key: string): nat {
    if IpKeyPrefix <= key then AnonymousLimit else AdminLimit
  }

  predicate Bounded(cache: Cache) {
    forall key :: key in cache ==> cache[key].count <= Cap(key)
  }

  /** No step pushes a counter past its cap. */
  lemma HandleKeepsBounded(cache: Cache, now: int, req: Request)
    requires Bounded(cache)
    ensures Bounded(Handle(cache, now, req).cache)
  {
    var key := CounterKey(req);
    match req.identity
    case Anonymous =>
      assert IpKeyPrefix <= key;
    case Authenticated(id, _) =>
      KeysNeverCollide(id, None);
  }

  /** Starting from a bounded cache (the empty one included), no run ever
      stores a count above its key's cap. */
  lemma {:induction false} RunKeepsBounded(cache: Cache, req: Request, times: seq<int>)
    requires Bounded(cache)
    ensures Bounded(Run(cache, req, times).cache)
    decreases |times|
  {
    if |times| > 0 {
      HandleKeepsBounded(cache, times[0], req);
      RunKeepsBounded(Handle(cache, times[0], req).cache, req, times[1..]);
    }
  }

  /** A key never holds more than its tier's limit: a step admits a request
      only while the stored count is below the limit, so the count it
      writes is at most the limit. */
  predicate WithinLimit(cache: Cache, req: Request) {
    CounterKey(req) in cache ==> cache[CounterKey(req)].count <= Limit(req.identity)
  }

  /** Repeating one request, starting from a cache in which its key is
      within the limit (for instance an empty one), never stores a count
      above that request's limit: 10 for a client address, 100 for a user
      and 1000 for an administrator. */
  lemma {:induction false} RunStaysWithinLimit(cache: Cache, req: Request, times: seq<int>)
    requires WithinLimit(cache, req)
    ensures WithinLimit(Run(cache, req, times).cache, req)
    decreases |times|
  {
    if |times| > 0 {
      var first := Handle(cache, times[0], req);
      assert WithinLimit(first.cache, req);
      RunStaysWithinLimit(first.cache, req, times[1..]);
    }
  }
}

=== FILE: results.dfy ===
/** Optional values and success/error results shared by every module of the
    model. The catalog backend reports failures as validation errors carried
    back to the caller; here they are ordinary values. */
module Results {

  /** A value that may be absent (Python's `None`). */
  datatype Option<+T> = None | Some(value: T) {

    /** The wrapped value, or `default` when absent. */
    function GetOr(default: T): T {
      match this
      case Some(v) => v
      case None => default
    }
  }

  /** Either a value or an error. */
  datatype Result<+T, +E> = Ok(value: T) | Err(error: E)
}

=== FILE: store.dfy ===
/** The product table and the change-log table as one value, with the save
    and delete paths that fire the change recorder: every insert appends a
    CREATED record, every later save of a row appends an UPDATED or
    DISABLED record, and a physical delete appends a DELETED record before
    the row goes. `nextId` is the table's auto-increment counter. */
module Store {
  import opened Results
  import opened Catalog
  import ChangeLog

  datatype Db = Db(products: map<nat, Product>, logs: seq<ChangeRecord>, nextId: nat)

  /** Every business key in the table, active rows and inactive rows alike. */
  function Ssns(products: map<nat, Product>): (s: set<string>)
    ensures forall id :: id in products ==> products[id].ssn in s
    ensures forall ssn :: ssn in s ==> exists id :: id in products && products[id].ssn == ssn
  {
    set id | id in products :: products[id].ssn
  }

  /** Some row other than `id` holds `ssn`. */
  predicate HeldByOther(products: map<nat, Product>, ssn: string, id: nat) {
    exists other :: other in products && other != id && products[other].ssn == ssn
  }

  /** `unique=True` on `ssn`: no two rows share a business key. */
  predicate SsnUnique(products: map<nat, Product>) {
    forall a, b :: a in products && b in products && products[a].ssn == products[b].ssn ==> a == b
  }

  /** The table's integrity: rows sit under their own primary key, every key
      is below the auto-increment counter, every row is within the price and
      discount bounds its columns declare, and business keys are unique. */
  predicate Valid(db: Db) {
    && (forall id :: id in db.products ==> db.products[id].id == id && id < db.nextId)
    && (forall id :: id in db.products ==> WithinBounds(db.products[id]))
    && SsnUnique(db.products)
  }

  datatype Saved = Saved(db: Db, product: Product)

  /** `Product.objects.create(...)`: a new row under the next id, then the
      CREATED record. */
  function Insert(db: Db, title: string, description: string, price: int, discount: Option<int>,
                  ssn: string, createdBy: Option<UserId>, updatedBy: Option<UserId>, now: int): (s: Saved)
    ensures s.product.id == db.nextId && s.db.nextId == db.nextId + 1
    ensures s.product == NewProduct(db.nextId, title, description, price, discount, ssn,
                                    createdBy, updatedBy, now)
    ensures s.db.products == db.products[db.nextId := s.product]
    ensures s.db.logs == db.logs + [ChangeRecord(db.nextId, Created, createdBy,
                                                 Message(ChangeLog.CreatedMessage), now)]
  {
    var p := NewProduct(db.nextId, title, description, price, discount, ssn, createdBy, updatedBy, now);
    Saved(Db(db.products[p.id := p], db.logs + [ChangeLog.RecordSave(true, p, None, now)], db.nextId + 1), p)
  }

  /** `instance.save()` of an existing row: `updated_on` is stamped, the row
      is written back, and the UPDATED or DISABLED record follows.
      `before` is the before-image the instance carries, if any. */
  function Save(db: Db, p: Product, before: Option<ChangeLog.Snapshot>, now: int): (s: Saved)
    ensures s.product == p.(updatedOn := now)
    ensures s.db.products == db.products[p.id := s.product]
    ensures s.db.nextId == db.nextId
    ensures s.db.logs == db.logs + [ChangeLog.RecordSave(false, s.product, before, now)]
  {
    var stamped := p.(updatedOn := now);
    Saved(Db(db.products[p.id := stamped], db.logs + [ChangeLog.RecordSave(false, stamped, before, now)], db.nextId),
          stamped)
  }

  /** An insert within the column bounds whose business key is new keeps
      the table valid. */
  lemma InsertKeepsValid(db: Db, title: string, description: string, price: int, discount: Option<int>,
                         ssn: string, createdBy: Option<UserId>, updatedBy: Option<UserId>, now: int)
    requires Valid(db) && ssn !in Ssns(db.products)
    requires MinPrice <= price && 0 <= discount.GetOr(0) <= MaxDiscount
    ensures Valid(Insert(db, title, description, price, discount, ssn, createdBy, updatedBy, now).db)
  {
    var s := Insert(db, title, description, price, discount, ssn, createdBy, updatedBy, now);
    assert db.nextId !in db.products;
    forall a, b | a in s.db.products && b in s.db.products && s.db.products[a].ssn == s.db.products[b].ssn
      ensures a == b
    {
      if a != db.nextId && b != db.nextId {
        assert db.products[a].ssn == db.products[b].ssn;
      } else if a != db.nextId {
        assert db.products[a].ssn in Ssns(db.products);
      } else if b != db.nextId {
        assert db.products[b].ssn in Ssns(db.products);
      }
    }
  }

  /** Writing back an existing row within the column bounds whose business
      key no other row holds keeps the table valid. */
  lemma SaveKeepsValid(db: Db, p: Product, before: Option<ChangeLog.Snapshot>, now: int)
    requires Valid(db) && p.id in db.products && !HeldByOther(db.products, p.ssn, p.id)
    requires WithinBounds(p)
    ensures Valid(Save(db, p, before, now).db)
  {
    var s := Save(db, p, before, now);
    forall a, b | a in s.db.products && b in s.db.products && s.db.products[a].ssn == s.db.products[b].ssn
      ensures a == b
    {
      if a != p.id && b != p.id {
        assert db.products[a].ssn == db.products[b].ssn;
      }
    }
  }

  /** The change records of every product except `id`: what a cascading
      delete of row `id` leaves in the log table. */
  function LogsWithout(logs: seq<ChangeRecord>, id: nat): (r: seq<ChangeRecord>)
    ensures |r| <= |logs|
    ensures forall c :: c in r <==> c in logs && c.productId != id
    decreases |logs|
  {
    if |logs| == 0 then []
    else if logs[|logs| - 1].productId == id then LogsWithout(logs[..|logs| - 1], id)
    else LogsWithout(logs[..|logs| - 1], id) + [logs[|logs| - 1]]
  }

  /** A physical delete as the code performs it: the pre-delete hook appends
      the DELETED record, then the row goes and, because the log's foreign
      key cascades, every record of that row goes with it. */
  function DeleteAsWritten(db: Db, id: nat, now: int): (d: Db)
    ensures id !in d.products && d.products == db.products - {id}
    ensures d.nextId == db.nextId
    ensures id in db.products ==> forall c :: c in d.logs ==> c.productId != id
    ensures Valid(db) && id in db.products ==>
              forall c :: c in d.logs <==> c in db.logs && c.productId != id
    ensures id !in db.products ==> d == db
  {
    if id !in db.products then db
    else
      var logged := db.logs + [ChangeLog.RecordDelete(db.products[id], now)];
      Db(db.products - {id}, LogsWithout(logged, id), db.nextId)
  }

  /** The DELETED record the hook writes never survives the delete that
      triggered it. */
  lemma DeletedRecordIsLost(db: Db, id: nat, now: int)
    requires Valid(db) && id in db.products
    ensures ChangeLog.RecordDelete(db.products[id], now) !in DeleteAsWritten(db, id, now).logs
  {
  }

  /** A physical delete that keeps the audit history: the row goes and the
      DELETED record stays as the newest entry after every earlier one. */
  function Delete(db: Db, id: nat, now: int): (d: Db)
    ensures id !in d.products && d.products == db.products - {id}
    ensures d.nextId == db.nextId
    ensures id in db.products ==> d.logs == db.logs + [ChangeLog.RecordDelete(db.products[id], now)]
    ensures id !in db.products ==> d == db
  {
    if id !in db.products then db
    else Db(db.products - {id}, db.logs + [ChangeLog.RecordDelete(db.products[id], now)], db.nextId)
  }

  /** Every stored row of a valid table has a final price between zero and
      its price. */
  lemma StoredFinalPriceWithinPrice(db: Db, id: nat)
    requires Valid(db) && id in db.products
    ensures 0.0 <= FinalPrice(db.products[id]) <= AsMoney(db.products[id].price)
  {
    FinalPriceWithinPrice(db.products[id]);
  }

  /** Deleting a row keeps the table valid. */
  lemma DeleteKeepsValid(db: Db, id: nat, now: int)
    requires Valid(db)
    ensures Valid(Delete(db, id, now))
  {
  }

}

=== FILE: text.dfy ===
/** String helpers the backend gets from Python's `str` type: decimal
    rendering of integers and two-place decimals, `split(",")[0]`,
    `strip()`, `startswith` and case-insensitive containment. Strings are
    sequences of characters; no Unicode normalisation is modelled. */
module Text {

  predicate IsDigit(c: char) {
    '0' <= c <= '9'
  }

  function DigitChar(d: nat): (c: char)
    requires d < 10
    ensures IsDigit(c)
  {
    (('0' as int) + d) as char
  }

  function DigitValue(c: char): (d: nat)
    requires IsDigit(c)
    ensures d < 10
  {
    (c as int) - ('0' as int)
  }

  /** `str(n)` for a natural number: canonical decimal, no leading zeros. */
  function NatToString(n: nat): (s: string)
    ensures |s| >= 1
    ensures forall i :: 0 <= i < |s| ==> IsDigit(s[i])
    ensures s[0] == '0' ==> n == 0
    decreases n
  {
    if n < 10 then [DigitChar(n)] else NatToString(n / 10) + [DigitChar(n % 10)]
  }

  /** The value of a string of decimal digits (`int(s)`). */
  function ParseNat(s: string): nat
    requires forall i :: 0 <= i < |s| ==> IsDigit(s[i])
    decreases |s|
  {
    if |s| == 0 then 0 else 10 * ParseNat(s[..|s| - 1]) + DigitValue(s[|s| - 1])
  }

  /** Parsing the rendering of a number gives the number back. */
  lemma {:induction false} ParseNatToString(n: nat)
    ensures ParseNat(NatToString(n)) == n
    decreases n
  {
    var s := NatToString(n);
    if n < 10 {
      assert s[..|s| - 1] == [];
    } else {
      var prefix := NatToString(n / 10);
      assert s == prefix + [DigitChar(n % 10)];
      assert s[..|s| - 1] == prefix;
      ParseNatToString(n / 10);
    }
  }

  /** Distinct numbers render as distinct strings. */
  lemma NatToStringInjective(a: nat, b: nat)
    ensures NatToString(a) == NatToString(b) ==> a == b
  {
    ParseNatToString(a);
    ParseNatToString(b);
  }

  /** The digits of a rendered amount from position `sign` on: whole-part
      digits, a point, and two fraction digits. */
  predicate AmountShaped(s: string, sign: nat) {
    && |s| >= sign + 4
    && s[|s| - 3] == '.'
    && (forall i :: sign <= i < |s| - 3 ==> IsDigit(s[i]))
    && IsDigit(s[|s| - 2]) && IsDigit(s[|s| - 1])
  }

  /** The magnitude, in hundredths, that a shaped amount reads as. */
  function AmountValue(s: string, sign: nat): nat
    requires AmountShaped(s, sign)
  {
    100 * ParseNat(s[sign..|s| - 3]) + 10 * DigitValue(s[|s| - 2]) + DigitValue(s[|s| - 1])
  }

  /** `s` reads as the two-place amount `hundredths`: a minus sign when it
      is negative, then digits, a point and two digits whose value is the
      magnitude. */
  predicate Denotes(s: string, hundredths: int) {
    if hundredths < 0 then
      |s| > 0 && s[0] == '-' && AmountShaped(s, 1) && AmountValue(s, 1) == -hundredths
    else
      AmountShaped(s, 0) && AmountValue(s, 0) == hundredths
  }

  /** `str(Decimal)` for an amount held in hundredths, as a two-place
      decimal field stores it: "12.50", "0.00", "-0.50". */
  function DecimalString(hundredths: int): (s: string)
    ensures |s| >= 4
    ensures s[|s| - 3] == '.'
    ensures (s[0] == '-') <==> hundredths < 0
  {
    var magnitude := if hundredths < 0 then -hundredths else hundredths;
    var fraction := magnitude % 100;
    var whole := NatToString(magnitude / 100);
    assert whole[0] != '-';
    (if hundredths < 0 then "-" else "") + whole + "." + [DigitChar(fraction / 10), DigitChar(fraction % 10)]
  }

  /** The rendering of an amount reads back as that amount: the digits
      before the point give the whole part and the two after it the
      hundredths, so a logged price or discount string is `str()` of the
      stored amount. */
  lemma DecimalStringDenotes(hundredths: int)
    ensures Denotes(DecimalString(hundredths), hundredths)
  {
    var magnitude := if hundredths < 0 then -hundredths else hundredths;
    var minus := if hundredths < 0 then "-" else "";
    DecimalStringPieces(hundredths);
    RenderedDenotes(minus, magnitude);
  }

  /** A sign followed by the rendering of a magnitude is shaped after the
      sign and reads as the magnitude. */
  lemma RenderedDenotes(minus: string, magnitude: nat)
    ensures var fraction := magnitude % 100;
            var s := minus + NatToString(magnitude / 100) + ['.', DigitChar(fraction / 10), DigitChar(fraction % 10)];
            AmountShaped(s, |minus|) && AmountValue(s, |minus|) == magnitude
  {
    var fraction := magnitude % 100;
    PiecesDenote(minus, NatToString(magnitude / 100), DigitChar(fraction / 10), DigitChar(fraction % 10));
    WholeAndFraction(magnitude);
  }

  /** The rendering is the sign, the whole part, a point and two digits. */
  lemma DecimalStringPieces(hundredths: int)
    ensures var magnitude := if hundredths < 0 then -hundredths else hundredths;
            var fraction := magnitude % 100;
            DecimalString(hundredths)
              == (if hundredths < 0 then "-" else "") + NatToString(magnitude / 100)
                 + ['.', DigitChar(fraction / 10), DigitChar(fraction % 10)]
  {
  }

  /** The whole-part text and the two fraction digits of a magnitude read
      back as the magnitude. */
  lemma WholeAndFraction(magnitude: nat)
    ensures var fraction := magnitude % 100;
            100 * ParseNat(NatToString(magnitude / 100))
              + 10 * DigitValue(DigitChar(fraction / 10)) + DigitValue(DigitChar(fraction % 10)) == magnitude
  {
    ParseNatToString(magnitude / 100);
    SplitHundredths(magnitude);
  }

  /** Whole-part digits, a point and two digits after any prefix form a
      shaped amount whose value is read from those digits. */
  lemma PiecesDenote(prefix: string, whole: string, high: char, low: char)
    requires |whole| >= 1 && forall i :: 0 <= i < |whole| ==> IsDigit(whole[i])
    requires IsDigit(high) && IsDigit(low)
    ensures var s := prefix + whole + ['.', high, low];
            && AmountShaped(s, |prefix|)
            && AmountValue(s, |prefix|) == 100 * ParseNat(whole) + 10 * DigitValue(high) + DigitValue(low)
  {
    var s := prefix + whole + ['.', high, low];
    var sign := |prefix|;
    assert s[sign..|s| - 3] == whole;
    forall i | sign <= i < |s| - 3
      ensures IsDigit(s[i])
    {
      assert s[i] == whole[i - sign];
    }
  }

  /** A magnitude is its whole part followed by its two fraction digits. */
  lemma SplitHundredths(m: nat)
    ensures 100 * (m / 100) + 10 * ((m % 100) / 10) + (m % 100) % 10 == m
  {
  }

  /** Distinct amounts render as distinct strings, so a changed price or
      discount always shows as a changed string. */
  lemma DecimalStringInjective(a: int, b: int)
    ensures DecimalString(a) == DecimalString(b) ==> a == b
  {
    DecimalStringDenotes(a);
    DecimalStringDenotes(b);
    if DecimalString(a) == DecimalString(b) {
      DenotesUnique(DecimalString(a), a, b);
    }
  }

  /** A string denotes at most one amount. */
  lemma DenotesUnique(s: string, a: int, b: int)
    requires Denotes(s, a) && Denotes(s, b)
    ensures a == b
  {
  }

  /** `str(bool)`. */
  function BoolString(b: bool): string {
    if b then "True" else "False"
  }

  /** `s.startswith(prefix)`. */
  predicate StartsWith(s: string, prefix: string) {
    prefix <= s
  }

  /** `s.split(sep)[0]`: everything before the first separator, or the whole
      string when it holds none. */
  function FirstSegment(s: string, sep: char): (r: string)
    ensures r <= s
    ensures sep !in r
    ensures |r| < |s| ==> s[|r|] == sep
    decreases |s|
  {
    if |s| == 0 || s[0] == sep then "" else [s[0]] + FirstSegment(s[1..], sep)
  }

  /** The characters Python's `str.isspace()` accepts. */
  predicate IsSpace(c: char) {
    || c == ' ' || '\t' <= c <= '\r' || '\U{1c}' <= c <= '\U{1f}'
    || c == '\U{85}' || c == '\U{a0}' || c == '\U{1680}'
    || '\U{2000}' <= c <= '\U{200a}' || c == '\U{2028}' || c == '\U{2029}'
    || c == '\U{202f}' || c == '\U{205f}' || c == '\U{3000}'
  }

  predicate AllSpace(s: string) {
    forall i :: 0 <= i < |s| ==> IsSpace(s[i])
  }

  /** `s.lstrip()`: the suffix left after dropping leading whitespace. */
  function TrimLeft(s: string): (r: string)
    ensures |r| <= |s| && r == s[|s| - |r|..]
    ensures AllSpace(s[..|s| - |r|])
    ensures |r| > 0 ==> !IsSpace(r[0])
    decreases |s|
  {
    if |s| > 0 && IsSpace(s[0]) then
      var t := TrimLeft(s[1..]);
      assert s[1..][|s| - 1 - |t|..] == s[|s| - |t|..];
      var dropped := s[..|s| - |t|];
      assert AllSpace(dropped) by {
        forall i | 0 <= i < |dropped|
          ensures IsSpace(dropped[i])
        {
          if i > 0 {
            assert dropped[i] == s[1..][..|s| - 1 - |t|][i - 1];
          }
        }
      }
      t
    else
      s
  }

  /** `s.rstrip()`: the prefix left after dropping trailing whitespace. */
  function TrimRight(s: string): (r: string)
    ensures r <= s
    ensures AllSpace(s[|r|..])
    ensures |r| > 0 ==> !IsSpace(r[|r| - 1])
    decreases |s|
  {
    if |s| > 0 && IsSpace(s[|s| - 1]) then
      var t := TrimRight(s[..|s| - 1]);
      assert AllSpace(s[|t|..]) by {
        forall i | |t| <= i < |s|
          ensures IsSpace(s[i])
        {
          if i < |s| - 1 {
            assert s[i] == s[..|s| - 1][|t|..][i - |t|];
          }
        }
      }
      t
    else
      s
  }

  /** `s.strip()`. */
  function Strip(s: string): string {
    TrimRight(TrimLeft(s))
  }

  /** `strip()` yields the empty string exactly when the input is blank. */
  lemma StripEmptyIffBlank(s: string)
    ensures Strip(s) == "" <==> AllSpace(s)
  {
    var l := TrimLeft(s);
    var k := |s| - |l|;
    if Strip(s) == "" {
      assert AllSpace(l[0..]);
      assert l == "";
      assert s[..k] == s;
    }
  }

  /** ASCII lower-casing of one character. */
  function LowerChar(c: char): char {
    if 'A' <= c <= 'Z' then ((c as int) + 32) as char else c
  }

  /** ASCII lower-casing of a string, character by character. */
  function Lower(s: string): (r: string)
    ensures |r| == |s|
    ensures forall i :: 0 <= i < |s| ==> r[i] == LowerChar(s[i])
  {
    seq(|s|, i requires 0 <= i < |s| => LowerChar(s[i]))
  }

  /** `needle in haystack`. */
  predicate Contains(haystack: string, needle: string)
    decreases |haystack|
  {
    needle <= haystack || (|haystack| > 0 && Contains(haystack[1..], needle))
  }

  /** The needle occurs in the haystack starting at offset `k`. */
  predicate OccursAt(haystack: string, needle: string, k: int) {
    0 <= k <= |haystack| - |needle| && needle <= haystack[k..]
  }

  /** An occurrence in the tail is an occurrence one place later in the
      whole. */
  lemma OccursAtTail(haystack: string, needle: string, k: int)
    requires |haystack| > 0 && 0 <= k
    ensures OccursAt(haystack[1..], needle, k) <==> OccursAt(haystack, needle, k + 1)
  {
    if 0 <= k <= |haystack| - 1 - |needle| {
      assert haystack[1..][k..] == haystack[k + 1..];
    }
  }

  /** Contains is the existence of an occurrence at some offset. */
  lemma {:induction false} ContainsIffOccurs(haystack: string, needle: string)
    ensures Contains(haystack, needle) <==> exists k :: OccursAt(haystack, needle, k)
    decreases |haystack|
  {
    if needle <= haystack {
      assert haystack[0..] == haystack;
      assert OccursAt(haystack, needle, 0);
    } else if |haystack| > 0 {
      ContainsIffOccurs(haystack[1..], needle);
      if Contains(haystack[1..], needle) {
        var k :| OccursAt(haystack[1..], needle, k);
        OccursAtTail(haystack, needle, k);
      } else {
        forall k | OccursAt(haystack, needle, k)
          ensures false
        {
          assert k != 0 by {
            assert haystack[0..] == haystack;
          }
          OccursAtTail(haystack, needle, k - 1);
        }
      }
    }
  }

  /** Django's `icontains` lookup: containment after case folding. */
  predicate ContainsIgnoreCase(haystack: string, needle: string) {
    Contains(Lower(haystack), Lower(needle))
  }

  /** Lower-casing never turns a space into a non-space or back. */
  lemma LowerKeepsSpaces(c: char)
    ensures IsSpace(LowerChar(c)) == IsSpace(c)
  {
  }

  /** Lower-casing twice is lower-casing once. */
  lemma LowerIdempotent(s: string)
    ensures Lower(Lower(s)) == Lower(s)
  {
  }

  lemma {:induction false} TrimLeftLower(s: string)
    ensures TrimLeft(Lower(s)) == Lower(TrimLeft(s))
    decreases |s|
  {
    if |s| > 0 {
      LowerKeepsSpaces(s[0]);
      assert Lower(s)[1..] == Lower(s[1..]);
      TrimLeftLower(s[1..]);
    }
  }

  lemma {:induction false} TrimRightLower(s: string)
    ensures TrimRight(Lower(s)) == Lower(TrimRight(s))
    decreases |s|
  {
    if |s| > 0 {
      LowerKeepsSpaces(s[|s| - 1]);
      assert Lower(s)[..|s| - 1] == Lower(s[..|s| - 1]);
      TrimRightLower(s[..|s| - 1]);
    }
  }

  /** Stripping and lower-casing commute. */
  lemma StripLower(s: string)
    ensures Strip(Lower(s)) == Lower(Strip(s))
  {
    TrimLeftLower(s);
    TrimRightLower(TrimLeft(s));
  }

}

=== FILE: views.dfy ===
/** The product endpoints: which rows each action sees, and the create,
    update, destroy, disable, search and bulk-create actions. The acting
    user is the authenticated request user; whether that user is an
    administrator is an input, as is the before-image an edited instance
    carries. Permission checks and pagination are not modelled. */
module ProductViews {
  import opened Results
  import opened Catalog
  import Store
  import Forms
  import ChangeLog
  import Text

  /** `get_queryset`: only the `list` action of a non-administrator is
      narrowed to active rows; every other action sees the whole table. */
  function Queryset(db: Store.Db, action: string, isAdmin: bool): (r: set<Product>)
    ensures forall p :: p in r <==>
              p in db.products.Values && (action == "list" && !isAdmin ==> p.isActive)
  {
    set id | id in db.products && (action != "list" || isAdmin || db.products[id].isActive)
      :: db.products[id]
  }

  /** The list endpoint hides inactive rows from non-administrators only. */
  lemma ListVisibility(db: Store.Db, isAdmin: bool)
    ensures isAdmin ==> Queryset(db, "list", isAdmin) == db.products.Values
    ensures !isAdmin ==> Queryset(db, "list", isAdmin) == set p | p in db.products.Values && p.isActive
  {
  }

  /** `perform_create`: the create form's checks, then an insert stamped
      with the user as creator and last editor. */
  function PerformCreate(db: Store.Db, input: Forms.ProductInput, user: UserId, now: int)
    : (r: Result<Store.Saved, set<Forms.FieldError>>)
    ensures r.Err? <==> Forms.CreateErrors(db.products, input) != {}
    ensures r.Err? ==> r.error == Forms.CreateErrors(db.products, input)
    ensures r.Ok? ==>
              && Forms.Carries(r.value.product, input)
              && r.value.product.createdBy == Some(user) && r.value.product.updatedBy == Some(user)
              && r.value.product.id == db.nextId && r.value.db.nextId == db.nextId + 1
              && r.value.db.products == db.products[db.nextId := r.value.product]
              && r.value.db.logs == db.logs + [ChangeRecord(db.nextId, Created, Some(user),
                                                            Message(ChangeLog.CreatedMessage), now)]
  {
    var errors := Forms.CreateErrors(db.products, input);
    if errors != {} then Err(errors)
    else
      Ok(Store.Insert(db, input.title, input.description, input.price, input.discount,
                      input.ssn, Some(user), Some(user), now))
  }

  /** A successful create keeps the table valid. */
  lemma PerformCreateKeepsValid(db: Store.Db, input: Forms.ProductInput, user: UserId, now: int)
    requires Store.Valid(db)
    ensures PerformCreate(db, input, user, now).Ok? ==>
              Store.Valid(PerformCreate(db, input, user, now).value.db)
  {
    if PerformCreate(db, input, user, now).Ok? {
      assert Forms.SsnExists !in Forms.CreateErrors(db.products, input);
      Forms.AcceptedInputWithinBounds(db.products, input, db.nextId, Some(user), now);
      Store.InsertKeepsValid(db, input.title, input.description, input.price, input.discount,
                             input.ssn, Some(user), Some(user), now);
    }
  }

  datatype UpdateError = NotFound | Invalid(errors: set<Forms.FieldError>)

  /** The update form's `save`: each supplied field replaces the stored one. */
  function ApplyPatch(p: Product, patch: Forms.ProductPatch): (q: Product)
    ensures q.title == patch.title.GetOr(p.title)
    ensures q.description == patch.description.GetOr(p.description)
    ensures q.price == patch.price.GetOr(p.price)
    ensures q.discount == patch.discount.GetOr(p.discount)
    ensures q.ssn == patch.ssn.GetOr(p.ssn)
    ensures q.(title := p.title, description := p.description, price := p.price,
               discount := p.discount, ssn := p.ssn) == p
  {
    p.(title := patch.title.GetOr(p.title), description := patch.description.GetOr(p.description),
       price := patch.price.GetOr(p.price), discount := patch.discount.GetOr(p.discount),
       ssn := patch.ssn.GetOr(p.ssn))
  }

  /** `perform_update`: an unknown id is not found; otherwise the update
      form's checks, then the patched row is saved with the user as last
      editor. The creator and the active flag are left alone. */
  function PerformUpdate(db: Store.Db, id: nat, patch: Forms.ProductPatch, user: UserId,
                         before: Option<ChangeLog.Snapshot>, now: int): (r: Result<Store.Saved, UpdateError>)
    ensures r == Err(NotFound) <==> id !in db.products
    ensures r.Err? && r.error.Invalid? <==>
              id in db.products && Forms.UpdateErrors(db.products, Some(id), patch) != {}
    ensures r.Ok? ==>
              var prior := db.products[id];
              && r.value.product.updatedBy == Some(user)
              && r.value.product.createdBy == prior.createdBy
              && r.value.product.isActive == prior.isActive
              && r.value.product.id == prior.id
              && r.value.product.ssn == patch.ssn.GetOr(prior.ssn)
              && r.value.product.updatedOn == now
              && r.value.product == ApplyPatch(prior, patch).(updatedBy := Some(user), updatedOn := now)
              && r.value.db.products == db.products[prior.id := r.value.product]
              && (Store.Valid(db) ==> r.value.db.products == db.products[id := r.value.product])
              && r.value.db.nextId == db.nextId
              && r.value.db.logs == db.logs + [ChangeLog.RecordSave(false, r.value.product, before, now)]
              && r.value.db.logs[..|db.logs|] == db.logs
              && r.value.db.logs[|db.logs|].action == (if prior.isActive then Updated else Disabled)
              && r.value.db.logs[|db.logs|].changedBy == Some(user)
              && (Store.Valid(db) ==> r.value.db.logs[|db.logs|].productId == id)
  {
    if id !in db.products then Err(NotFound)
    else
      var errors := Forms.UpdateErrors(db.products, Some(id), patch);
      if errors != {} then Err(Invalid(errors))
      else
        Ok(Store.Save(db, ApplyPatch(db.products[id], patch).(updatedBy := Some(user)), before, now))
  }

  /** A successful update keeps the table valid. */
  lemma PerformUpdateKeepsValid(db: Store.Db, id: nat, patch: Forms.ProductPatch, user: UserId,
                                before: Option<ChangeLog.Snapshot>, now: int)
    requires Store.Valid(db)
    ensures PerformUpdate(db, id, patch, user, before, now).Ok? ==>
              Store.Valid(PerformUpdate(db, id, patch, user, before, now).value.db)
  {
    if PerformUpdate(db, id, patch, user, before, now).Ok? {
      var p := ApplyPatch(db.products[id], patch).(updatedBy := Some(user));
      assert Forms.SsnExists !in Forms.UpdateErrors(db.products, Some(id), patch);
      assert Forms.PriceNotPositive !in Forms.UpdateErrors(db.products, Some(id), patch);
      assert Forms.DiscountOutOfRange !in Forms.UpdateErrors(db.products, Some(id), patch);
      Store.SaveKeepsValid(db, p, before, now);
    }
  }

  /** The effect of soft-deleting row `id` on behalf of `user`: the stored
      row becomes the soft-deleted row stamped at `now`, no other row and
      not the id counter changes, and one DISABLED record by the user is
      appended to the log. */
  predicate SoftDeleted(db: Store.Db, id: nat, user: UserId, before: Option<ChangeLog.Snapshot>, now: int,
                        s: Store.Saved)
    requires id in db.products
  {
    && s.product == SoftDelete(db.products[id], Some(user)).(updatedOn := now)
    && s.db.products == db.products[db.products[id].id := s.product]
    && (Store.Valid(db) ==> s.db.products == db.products[id := s.product])
    && s.db.nextId == db.nextId
    && s.db.logs == db.logs + [ChangeLog.RecordSave(false, s.product, before, now)]
    && s.db.logs[..|db.logs|] == db.logs
    && s.db.logs[|db.logs|].action == Disabled
    && s.db.logs[|db.logs|].changedBy == Some(user)
    && (Store.Valid(db) ==> s.db.logs[|db.logs|].productId == id)
  }

  /** `destroy`: never a physical delete. The row is soft-deleted by the
      user and saved, which logs a DISABLED record. */
  function Destroy(db: Store.Db, id: nat, user: UserId, before: Option<ChangeLog.Snapshot>, now: int)
    : (r: Result<Store.Saved, UpdateError>)
    ensures r.Err? <==> id !in db.products
    ensures r.Err? ==> r.error == NotFound
    ensures r.Ok? ==>
              && id in r.value.db.products
              && (Store.Valid(db) ==> r.value.db.products.Keys == db.products.Keys)
              && (Store.Valid(db) ==> !r.value.db.products[id].isActive)
              && SoftDeleted(db, id, user, before, now, r.value)
  {
    if id !in db.products then Err(NotFound)
    else Ok(Store.Save(db, SoftDelete(db.products[id], Some(user)), before, now))
  }

  /** The `disable` action: the same soft delete as `destroy`. */
  function Disable(db: Store.Db, id: nat, user: UserId, before: Option<ChangeLog.Snapshot>, now: int)
    : (r: Result<Store.Saved, UpdateError>)
    ensures r.Err? <==> id !in db.products
    ensures r.Ok? ==> !r.value.product.isActive && r.value.product.updatedBy == Some(user)
    ensures r.Ok? ==> SoftDeleted(db, id, user, before, now, r.value)
  {
    if id !in db.products then Err(NotFound)
    else Ok(Store.Save(db, SoftDelete(db.products[id], Some(user)), before, now))
  }

  /** Disabling a product has exactly the effect of destroying it. */
  lemma DisableIsDestroy(db: Store.Db, id: nat, user: UserId, before: Option<ChangeLog.Snapshot>, now: int)
    ensures Disable(db, id, user, before, now) == Destroy(db, id, user, before, now)
  {
  }

  /** A soft delete keeps the table valid. */
  lemma DestroyKeepsValid(db: Store.Db, id: nat, user: UserId, before: Option<ChangeLog.Snapshot>, now: int)
    requires Store.Valid(db)
    ensures Destroy(db, id, user, before, now).Ok? ==>
              Store.Valid(Destroy(db, id, user, before, now).value.db)
  {
    if id in db.products {
      Store.SaveKeepsValid(db, SoftDelete(db.products[id], Some(user)), before, now);
    }
  }

  // ---- search ----

  datatype SearchError = MissingQuery

  /** A row matches a query when its title or its description contains it,
      ignoring case. */
  predicate Matches(p: Product, query: string) {
    Text.ContainsIgnoreCase(p.title, query) || Text.ContainsIgnoreCase(p.description, query)
  }

  /** `search` as written: the query is stripped and must not be empty; the
      rows searched are the `search` action's queryset, which is the whole
      table even for a non-administrator. */
  function SearchAsWritten(db: Store.Db, q: string, isAdmin: bool): (r: Result<set<Product>, SearchError>)
    ensures r.Err? <==> Text.AllSpace(q)
    ensures r.Ok? ==> forall p :: p in r.value <==> p in db.products.Values && Matches(p, Text.Strip(q))
  {
    Text.StripEmptyIffBlank(q);
    var query := Text.Strip(q);
    if query == "" then Err(MissingQuery)
    else Ok(set p | p in Queryset(db, "search", isAdmin) && Matches(p, query))
  }

  /** A non-administrator's search returns any matching soft-deleted row,
      although the same user's list hides it. */
  lemma SearchAsWrittenShowsInactive(db: Store.Db, q: string, p: Product)
    requires p in db.products.Values && !p.isActive
    ensures p !in Queryset(db, "list", false)
    ensures !Text.AllSpace(q) && Matches(p, Text.Strip(q)) ==>
              SearchAsWritten(db, q, false).Ok? && p in SearchAsWritten(db, q, false).value
  {
  }

  /** A concrete case: the inactive row "Lamp" is found by searching
      "lamp" as a non-administrator. */
  lemma SearchAsWrittenLampExample()
    ensures var p := Product(1, "Lamp", "desk lamp", 1000, 0, "S-1", false, None, None, 0, 0);
            !Text.AllSpace("lamp") && Matches(p, Text.Strip("lamp"))
  {
    var p := Product(1, "Lamp", "desk lamp", 1000, 0, "S-1", false, None, None, 0, 0);
    LampMatches(p);
    StripLamp();
  }

  lemma StripLamp()
    ensures Text.Strip("lamp") == "lamp" && !Text.AllSpace("lamp")
  {
    assert !Text.IsSpace("lamp"[0]);
    assert !Text.IsSpace("lamp"[3]);
  }

  lemma LampMatches(p: Product)
    requires p.title == "Lamp"
    ensures Matches(p, "lamp")
  {
    var lowered := Text.Lower("Lamp");
    assert lowered == "lamp" by {
      assert lowered[0] == Text.LowerChar('L') == 'l';
    }
    assert Text.Lower("lamp") == "lamp";
    assert "lamp" <= lowered;
  }

  /** `search` searching the rows the same user's list shows. */
  function Search(db: Store.Db, q: string, isAdmin: bool): (r: Result<set<Product>, SearchError>)
    ensures r.Err? <==> Text.AllSpace(q)
    ensures r.Ok? ==> forall p :: p in r.value <==>
              p in Queryset(db, "list", isAdmin) && Matches(p, Text.Strip(q))
    ensures r.Ok? && !isAdmin ==> forall p :: p in r.value ==> p.isActive
  {
    Text.StripEmptyIffBlank(q);
    var query := Text.Strip(q);
    if query == "" then Err(MissingQuery)
    else Ok(set p | p in Queryset(db, "list", isAdmin) && Matches(p, query))
  }

  /** A lower-cased query matches the same rows as the query itself. */
  lemma MatchesLowerQuery(p: Product, query: string)
    ensures Matches(p, Text.Lower(query)) == Matches(p, query)
  {
    Text.LowerIdempotent(query);
  }

  /** Among any rows, a lower-cased query selects the same ones as the
      query itself. */
  lemma SelectLowerQuery(rows: set<Product>, query: string)
    ensures (set p | p in rows && Matches(p, Text.Lower(query))) == (set p | p in rows && Matches(p, query))
  {
    forall p | p in rows
      ensures Matches(p, Text.Lower(query)) == Matches(p, query)
    {
      MatchesLowerQuery(p, query);
    }
  }

  /** Searching is insensitive to the letter case of the query. */
  lemma SearchIgnoresQueryCase(db: Store.Db, q: string, isAdmin: bool)
    ensures Search(db, Text.Lower(q), isAdmin) == Search(db, q, isAdmin)
  {
    var query := Text.Strip(q);
    var lowered := Text.Strip(Text.Lower(q));
    Text.StripLower(q);
    Text.StripEmptyIffBlank(q);
    Text.StripEmptyIffBlank(Text.Lower(q));
    if query != "" {
      SelectLowerQuery(Queryset(db, "list", isAdmin), query);
    }
  }

  // ---- bulk create ----

  datatype BulkFailure = ItemErrors(errors: seq<set<Forms.FieldError>>) | ListError(error: Forms.BulkError)

  /** `bulk_create`: each entry passes the create form's checks, then the
      batch checks, then every entry is created by the user. */
  function BulkCreate(db: Store.Db, batch: seq<Forms.ProductInput>, user: UserId, now: int)
    : (r: Result<Forms.Batch, BulkFailure>)
    ensures r.Err? && r.error.ItemErrors? <==>
              exists i :: 0 <= i < |batch| && Forms.CreateErrors(db.products, batch[i]) != {}
    ensures r.Err? && r.error.ItemErrors? ==>
              && |r.error.errors| == |batch|
              && forall i :: 0 <= i < |batch| ==> r.error.errors[i] == Forms.CreateErrors(db.products, batch[i])
    ensures r.Err? && r.error.ListError? ==>
              Forms.ValidateProducts(db.products, batch) == Err(r.error.error)
    ensures r.Ok? ==>
              && |batch| > 0 && !Forms.HasRepeat(Forms.SsnList(batch))
              && r.value == Forms.CreateAll(db, batch, user, now)
              && |r.value.products| == |batch|
              && forall i :: 0 <= i < |batch| ==>
                   r.value.products[i].createdBy == Some(user) && r.value.products[i].updatedBy == Some(user)
  {
    if exists i :: 0 <= i < |batch| && Forms.CreateErrors(db.products, batch[i]) != {} then
      Err(ItemErrors(seq(|batch|, i requires 0 <= i < |batch| => Forms.CreateErrors(db.products, batch[i]))))
    else
      match Forms.ValidateProducts(db.products, batch)
      case Err(e) => Err(ListError(e))
      case Ok(valid) => Ok(Forms.CreateAll(db, valid, user, now))
  }

  /** Through this endpoint a stored key is already refused entry by entry,
      so the batch-level existing-key error never surfaces. */
  lemma BulkCreateNeverReportsExisting(db: Store.Db, batch: seq<Forms.ProductInput>, user: UserId, now: int)
    ensures var r := BulkCreate(db, batch, user, now);
            !(r.Err? && r.error.ListError? && r.error.error.ExistingSsns?)
  {
  }

  /** A successful bulk create keeps the table valid. */
  lemma BulkCreateKeepsValid(db: Store.Db, batch: seq<Forms.ProductInput>, user: UserId, now: int)
    requires Store.Valid(db)
    ensures BulkCreate(db, batch, user, now).Ok? ==> Store.Valid(BulkCreate(db, batch, user, now).value.db)
  {
    if BulkCreate(db, batch, user, now).Ok? {
      forall i | 0 <= i < |batch|
        ensures Forms.InBounds(batch[i])
      {
        Forms.AcceptedInputWithinBounds(db.products, batch[i], db.nextId, Some(user), now);
      }
      Forms.CreateAllKeepsValid(db, batch, user, now);
    }
  }
}
